=== FILE: README.md ===
# periodic_records: interval consistency, in Dafny

`periodic_records` is a Ruby gem for ActiveRecord models whose rows hold a
validity period `[start_at, end_at]`, for example one employee's
assignments. The gem keeps the periods of one parent's records (the
*siblings*) from overlapping. It does not refuse a save that would overlap.
Instead, once the save is written, it rewrites the siblings it overlaps:
each one is destroyed, split in two, or cut back at one edge. A *gapless*
model also keeps the siblings tiling the whole timeline from `MIN` to
`MAX`. It forbids moving the outer edges and refuses to destroy the first
or the last record. When a save or a destroy opens a gap, it stretches the
neighbouring record over that gap.

This project models those two pieces as pure functions over an immutable
store, and proves their properties:

- `Timeline` (`timeline.dfy`): the ordered timeline.
  - A point is an integer tick, and one tick is one step (`Succ`/`Pred`).
  - `MIN` and `MAX` are the gem's `0001-01-01` and `9999-01-01`, written as
    day numbers of the proleptic Gregorian calendar.
  - It also holds the closed interval and the inclusive overlap test.
- `Records` (`records.dfy`):
  - a record's bounds while they are being edited (either may be unset);
  - validation and the default period;
  - one parent's sibling group, a map from primary key to interval plus the
    next key to hand out;
  - the `siblings.where(...).first` lookup, which returns the matching
    record with the least key.
- `Overlap` (`overlap.dfy`): overlap resolution.
  - Siblings are classified into the four cases.
  - Each case produces the pieces that replace the sibling.
  - The overlap set is computed once, before any sibling is rewritten.
  - A fold over that set applies the cases.
- `GaplessPolicy` (`gapless.rb` in the gem, `gapless.dfy` here):
  - the edge validations;
  - closing the previous and the next gap after a save;
  - the guarded destroy, which stretches the predecessor.
- `Lifecycle` (`lifecycle.dfy`): one round of the save sequence, then the
  tiling results.
  - The save sequence is validate, write, resolve overlaps, then (gapless
    only) close gaps. The corrective writes of that round do not run their
    own callbacks here.
  - One result is that a plain save leaves no point covered twice.
  - Another is that a gapless save keeps a tiling of `[MIN, MAX]` a tiling.
- `Cascade` (`cascade.dfy`): the same save with the callbacks that every
  corrective `save` and `destroy` triggers in turn, down to a nesting
  depth bound.
  - For a plain model over siblings that do not overlap each other it
    agrees with the one round of `Lifecycle`.
  - A gapless destroy over siblings with no point covered twice agrees
    with the one-round `GaplessPolicy.Destroy`.
  - Under the gapless policy it can differ (see Findings).
- `DatetimeStep` (`datetime_step.dfy`): what the hard-coded one-day step
  does to a `datetime` column (see Findings).
- `Scenarios` (`scenarios.dfy`): the concrete situations of the gem's
  specs, two gapless saves and one gapless destroy whose nested callbacks
  change the outcome, and a gapless update that jumps clear of its old
  span, replayed on the model.

The gem's callbacks read state the model passes explicitly:

| in the gem | in the model |
|---|---|
| persisted bounds `start_at_was` | `was` |
| database row order of the overlap query | `order` |
| `Date.current` | `today` |
| whether the model includes `Gapless` | `gapless` |

## Model

| member | source | states |
|---|---|---|
| Timeline.OverlapsIffSharedPoint | lib/periodic_records/model.rb:17-21 | for well-formed intervals the inclusive bound test `start <= other.end && end >= other.start` holds exactly when the two intervals share a point of the timeline |
| Timeline.SharedPointOverlaps | lib/periodic_records/model.rb:17-21 | two intervals that share a point always pass the overlap query, well formed or not |
| Records.WithinIntervalMeansSharedPoint | lib/periodic_records/model.rb:43-45 | `within_interval?` is false whenever a bound is unset; for a valid record and a non-empty window it holds exactly when record and window share a point |
| Records.Validate | lib/periodic_records/model.rb:108-112 | a draft has no errors iff both bounds are present and `start <= end` (equal bounds are valid); `:blank` is reported on exactly the unset bounds (the presence checks of line 9) and `end_at :invalid` exactly when both are set and the end precedes the start |
| Records.SetDefaultPeriod | lib/periodic_records/model.rb:77-80 | the result has both bounds; a set bound is kept, an unset start becomes `today` and an unset end becomes `MAX` |
| Records.DefaultPeriodSettles | lib/periodic_records/model.rb:71-80 | defaulting is idempotent, a defaulted record never fails the presence checks, and a record built with no bounds on a day up to `MAX` is valid |
| Records.FindFrom | lib/periodic_records/gapless.rb:38 | a scan of keys `[from, to)` returns the least matching key, and none only when no key in the range matches |
| Records.FindSibling | lib/periodic_records/gapless.rb:38 | `siblings.where(f => t).first` returns a sibling other than the record itself whose bound `f` equals `t` and no smaller key matches; it returns nothing only when no sibling matches |
| Records.FindSiblingCovering | lib/periodic_records/gapless.rb:69 | when no point is covered twice, the sibling whose bound equals `t` is the one `.first` returns, so the lookup has no choice to make |
| Overlap.Classify | lib/periodic_records/model.rb:56-67 | on an overlapping sibling the fall-through never fires and each branch fires exactly when its geometric case holds: contained, straddling both edges, covering only R's start, covering only R's end |
| Overlap.Pieces | lib/periodic_records/model.rb:82-106 | a sibling is replaced by at most two intervals, each well formed and none overlapping R |
| Overlap.PiecesCoverDifference | lib/periodic_records/model.rb:86-106 | the pieces of an overlapping sibling cover exactly the points of the sibling outside R, lie inside the sibling, and the two halves of a split share no point |
| Overlap.ResolveOne | lib/periodic_records/model.rb:82-106 | destroy removes the sibling's key, a truncation rewrites it in place, and a split rewrites it with the head and inserts the tail under the next fresh key; no other record changes |
| Overlap.Overlapping | lib/periodic_records/model.rb:51-53 | the cached overlap set holds exactly the siblings (never R) whose stored interval overlaps R, with the bounds they had when read, each once when the row order has no repeats |
| Overlap.ResolveEach | lib/periodic_records/model.rb:56 | visiting the cached siblings keeps every key below the next key, and the next key never decreases |
| Overlap.AfterSave | lib/periodic_records/model.rb:55-69 | the saved record keeps its bounds and the store stays well keyed |
| Overlap.AfterSaveClearsOverlaps | lib/periodic_records/model.rb:55-106 | after resolution no record other than R overlaps R |
| Overlap.AfterSaveKeepsCoverage | lib/periodic_records/model.rb:55-106 | R together with the rewritten siblings covers exactly the points R and the original siblings covered |
| Overlap.AfterSaveKeepsNoOverlap | lib/periodic_records/model.rb:55-106 | if the siblings never covered a point twice, afterwards no point is covered twice even counting R, and well-formed intervals stay well formed |
| Overlap.AfterSaveLeavesOthers | lib/periodic_records/model.rb:51-69 | siblings that do not overlap R are untouched, and every new key is a fresh one |
| Overlap.AfterSaveOutcome | lib/periodic_records/model.rb:55-106 | a contained sibling is gone; a straddling one becomes `[s, R.start-1]` plus a new record `[R.end+1, e]`; one over R's start becomes `[s, R.start-1]`; one over R's end becomes `[R.end+1, e]` |
| Overlap.AfterSaveCount | lib/periodic_records/model.rb:82-96 | the record count drops by one per destroyed sibling and grows by one per split sibling |
| Overlap.AfterSaveNoOverlapIsNoop | lib/periodic_records/model.rb:55-69 | saving a record that overlaps no sibling changes nothing else |
| GaplessPolicy.GaplessErrors | lib/periodic_records/gapless.rb:19-29 | `start_at :invalid` exactly when a persisted start at `MIN` is changed, `end_at :invalid` exactly when a persisted end at `MAX` is changed; a new record gets neither |
| GaplessPolicy.AdjustPreviousGap | lib/periodic_records/gapless.rb:36-44 | when the start moved later, the first sibling ending one step before the old start now ends one step before the new start; in this round starts, keys and every other record are unchanged, and nothing changes when the start did not move later |
| GaplessPolicy.AdjustNextGap | lib/periodic_records/gapless.rb:46-54 | when the end moved earlier, the first sibling starting one step after the old end now starts one step after the new end; in this round ends, keys and every other record are unchanged, and nothing changes when the end did not move earlier |
| GaplessPolicy.AdjustGaps | lib/periodic_records/gapless.rb:31-34 | in this round closing both gaps keeps the keys and the saved record, is a no-op when the start moved earlier or did not move and the end moved later or did not move, and creates no overlap with the saved record |
| GaplessPolicy.DestroyErrors | lib/periodic_records/gapless.rb:56-66 | a destroy is refused exactly when the record starts at `MIN` (error on `start_at`) or ends at `MAX` (error on `end_at`) |
| GaplessPolicy.Destroy | lib/periodic_records/gapless.rb:56-74 | a refused destroy fails with errors and changes nothing; an allowed one removes the record, the first sibling ending one step before it now ends where it ended, and in this round nothing else changes |
| GaplessPolicy.DestroyKeepsTiling | lib/periodic_records/gapless.rb:56-74 | if the siblings tile `[MIN, MAX]` before an allowed destroy, they tile it afterwards |
| Lifecycle.SaveErrors | lib/periodic_records/gapless.rb:5-7 | a save passing every validation has a complete, valid draft, and under the gapless policy keeps a persisted `MIN` start and `MAX` end |
| Lifecycle.Save | lib/periodic_records/model.rb:8-14 | a save fails exactly when validation reports errors, and then returns them; a successful one stores the draft's bounds under the saved key and no other record overlaps them |
| Lifecycle.SaveKeepsNoOverlap | lib/periodic_records/model.rb:55-106 | a plain save over siblings that never cover a point twice leaves no point covered twice, and the group then covers the old coverage outside the saved record plus the new span |
| Lifecycle.PreviousGapCloses | lib/periodic_records/gapless.rb:36-44 | after overlap resolution, closing the previous gap re-covers exactly the span the new start freed, without covering any point twice |
| Lifecycle.NextGapCloses | lib/periodic_records/gapless.rb:46-54 | closing the next gap re-covers exactly the span the new end freed, without covering any point twice |
| Lifecycle.RoundFacts | lib/periodic_records/model.rb:55-106 | one round of resolution over siblings without overlaps leaves no point covered twice, stores the new span, covers exactly the other records' old points plus the new span, and leaves every sibling the new span does not meet as it was |
| Lifecycle.GapsCloseAfterUpdate | lib/periodic_records/gapless.rb:31-54 | after the round, closing both gaps of an update that meets or touches its old tiled span, with the outer edges kept, restores a tiling of `[MIN, MAX]` |
| Lifecycle.SaveKeepsTiling | lib/periodic_records/gapless.rb:31-54 | a gapless save of a span inside `[MIN, MAX]` keeps a tiling of `[MIN, MAX]` a tiling |
| Cascade.Scan | lib/periodic_records/model.rb:51-53 | every entry of the query a nested save runs is a stored record other than the saved one, keyed inside the scanned range, carried with its stored bounds, and overlapping the saved bounds |
| Cascade.ScanComplete | lib/periodic_records/model.rb:51-53 | the query misses nothing: every stored record in range other than the saved one whose bounds overlap the copy's bounds is returned with its stored bounds, whether or not the saved row still holds those bounds |
| Cascade.ScanAscending | lib/periodic_records/model.rb:51-53 | the query lists records in ascending key order, each once |
| Cascade.ScanNone | lib/periodic_records/model.rb:51-53 | when no stored record in the scanned range other than the saved one overlaps its bounds, the query is empty |
| Cascade.ScanOnly | lib/periodic_records/model.rb:51-53 | when exactly one stored record other than the saved one overlaps its bounds, the query returns that record alone, with its stored bounds |
| Cascade.ScanIsOverlapping | lib/periodic_records/model.rb:51-53 | that query returns exactly the overlap set `Overlap.Overlapping` caches for the rows in key order |
| Cascade.WriteCopy | lib/periodic_records/model.rb:94-105 | saving a copy writes only the columns changed on it: keys and the next key stay, other rows stay, a bound the copy changed takes the copy's value, a bound it left alone keeps the stored value even when another save changed it since the copy was read, and a deleted row stays deleted |
| Cascade.Save | lib/periodic_records/model.rb:8-14 | a save with nested callbacks fails exactly when the validations of `Lifecycle.SaveErrors` report errors, and otherwise leaves a well-keyed store |
| Cascade.PieceIsAlone | lib/periodic_records/model.rb:86-106 | when the siblings do not overlap each other, a piece cut from a sibling overlaps no other stored record, the saved one included |
| Cascade.PieceSaveIdle | lib/periodic_records/model.rb:55-69 | the plain save of a row that overlaps no other row leaves the store as it is, and its callbacks run to the end whenever the depth bound allows one level |
| Cascade.StepAgrees | lib/periodic_records/model.rb:56-106 | in a plain model over disjoint siblings, visiting one sibling with all its nested callbacks gives the store one step of `Overlap.ResolveEach` gives, and every nested callback runs |
| Cascade.ResolveAgrees | lib/periodic_records/model.rb:55-69 | the same holds for the whole visit of the cached overlap set |
| Cascade.SavedAgrees | lib/periodic_records/model.rb:13 | the after-save callbacks of a plain save over disjoint siblings leave what `Overlap.AfterSave` leaves for the rows in key order |
| Cascade.DestroyedAgrees | lib/periodic_records/gapless.rb:56-74 | over siblings no point of which is covered twice, a gapless destroy with its nested callbacks gives exactly the store of `GaplessPolicy.Destroy`: a refused one leaves the store as it was, an allowed one ends with the predecessor stretched and nothing else changed, and at every depth bound of at least one every nested callback runs |
| Cascade.PlainSaveAgrees | lib/periodic_records/model.rb:8-14 | a plain save that passes validation, over siblings that do not overlap each other, gives with its nested callbacks exactly the store of the one-round `Lifecycle.Save` over the rows in key order, at every depth bound of at least one, and from depth two on every nested callback runs |
| Scenarios.SplitOfFullSpan | spec/periodic_records/model_spec.rb:14-35 | a lone `[MIN, MAX]` record split by 2014-05-01..2014-05-06 becomes `[MIN, 2014-04-30]` plus a new `[2014-05-07, MAX]` |
| Scenarios.EndIsTruncated | spec/periodic_records/model_spec.rb:37-57 | after that split, a new record for 2014-05-04 .. 2014-05-08 ends the middle record on 2014-05-03 and starts the last on 2014-05-09; four records remain |
| Scenarios.StartsAreTruncated | spec/periodic_records/model_spec.rb:59-78 | after that split, a new record for 2014-04-28 .. 2014-05-02 ends the first record on 2014-04-27 and starts the middle one on 2014-05-03, the four records of model_spec.rb:107-136 |
| Scenarios.StartAtBeginning | spec/periodic_records/model_spec.rb:80-105 | a new record starting on the same day as the lone 2014-07-21 .. 2014-07-24 record moves that record's start to 2014-07-23; two records remain |
| Scenarios.ContainedIsDestroyed | spec/periodic_records/model_spec.rb:138-164 | saving 2014-05-01..2014-05-04 over `[MIN, 05-01]`, `[05-02, 05-04]`, `[05-05, MAX]` truncates the first, destroys the second, and leaves three records |
| Scenarios.GaplessDestroys | spec/periodic_records/gapless_spec.rb:35-61 | of the three assignments the first and last cannot be destroyed; destroying the middle one stretches the first to 2018-02-15 |
| Scenarios.GaplessEdgesAreFixed | spec/periodic_records/gapless_spec.rb:21-33 | moving the first assignment's start or the last one's end is refused |
| Scenarios.GaplessStartShift | spec/periodic_records/gapless_spec.rb:65-71 | moving the middle start to 2018-01-20 makes the first assignment end on 2018-01-19 |
| Scenarios.GaplessEndShift | spec/periodic_records/gapless_spec.rb:73-79 | moving the middle end to 2018-02-10 makes the last assignment start on 2018-02-11 |
| Scenarios.JumpLeavesOverlap | lib/periodic_records/gapless.rb:36-44 | one round of moving the middle assignment clear of its old span, to 2018-03-01 .. 2018-03-10, splits the last assignment and stretches the first over the split's head, so the result is no tiling |
| Scenarios.RefusedOneRound | lib/periodic_records/model.rb:55-84 | one round of an update of the middle assignment to `[MIN, 2018-02-15]` destroys the first assignment and leaves a tiling |
| Scenarios.RefusedCascade | lib/periodic_records/gapless.rb:56-66 | with the nested callbacks the first assignment's own destroy guard refuses, so it stays and overlaps the updated middle one |
| Scenarios.RefusedDestroyLeavesOverlap | lib/periodic_records/gapless.rb:56-66 | both outcomes of that update side by side |
| Scenarios.CrossedDestroyCascade | lib/periodic_records/gapless.rb:68-74 | with siblings `[10, 20]`, `[21, 30]` and `[25, 40]`, destroying the second gives `[10, 30]` and `[25, 40]` in one round, while the stretched first sibling's nested save truncates the third to `[31, 40]` |
| Scenarios.CreateOneRound | lib/periodic_records/model.rb:86-96 | one round of creating 2018-01-20..2018-01-25 splits the middle assignment around the new record, which stays |
| Scenarios.CreateCascade | lib/periodic_records/gapless.rb:46-54 | with the nested callbacks the head's gap closing drags the last assignment over the new record, whose own save then destroys it; the chain of gap closings that follows restores the original three assignments |
| Scenarios.CreateIsUndone | lib/periodic_records/gapless.rb:46-54 | both outcomes of that creation side by side |
| DatetimeStep.DayStepLosesCoverage | lib/periodic_records/model.rb:86-101 | with the one-day step on a seconds timeline, a split or end-truncated sibling loses the second just before R: no piece covers it, although the sibling did and R does not |
| DatetimeStep.DayStepSplitExample | spec/periodic_records/model_spec.rb:178-199 | the datetime split of the specs: with a day step the head ends at 2014-04-30 09:20:00 and the tail starts at 2014-05-07 13:45:00; with a one-tick step they are 2014-05-01 09:19:59 and 2014-05-06 13:45:01 |

## Left out

- ActiveRecord persistence, the Arel query building (`within_interval` as a scope, `siblings.where`), `dup` and `throw :abort`. A store is a map from key to interval. Other columns of a record are not modelled, so a split's tail copy carries only its interval.
- Lifecycle.Save: describes one round of callbacks. In the gem each corrective `save(validate: false)` and `destroy` runs that sibling's own callbacks as well. `Cascade.Save` models those nested callbacks, and `Cascade.PlainSaveAgrees` proves the two agree for a plain model whose siblings do not overlap each other. When the siblings already overlap each other, or under the gapless policy, they can differ (see `Overlap.AfterSaveClearsOverlaps` below and Findings).
- Lifecycle.SaveKeepsTiling: holds for the one-round save only. With the gem's nested callbacks a gapless save can leave an overlap (`Scenarios.RefusedDestroyLeavesOverlap`) or destroy the record just created (`Scenarios.CreateIsUndone`). It also requires the new span to lie within `[MIN, MAX]` and, for an update, to meet or touch the old one: an update that jumps clear of its old span does not keep a tiling in one round (`Scenarios.JumpLeavesOverlap`, where the first assignment is stretched over a piece of the split last one). What the gem's nested callbacks make of that case is not proved here.
- Overlap.AfterSaveClearsOverlaps: one round only. When the siblings already overlap each other, the nested saves of the rewritten siblings resolve against each other and can rewrite further: with siblings `[1, 10]` and `[5, 15]` and a saved span `[8, 9]`, the save of the first sibling's head moves the second to `[8, 15]`, whose own save then destroys the saved record. `Cascade.PlainSaveAgrees` shows the round and the nested callbacks coincide when the siblings are disjoint.
- Overlap.AfterSaveKeepsCoverage: one round only, for the same reason as `Overlap.AfterSaveClearsOverlaps`.
- Overlap.AfterSaveOutcome: one round only, for the same reason as `Overlap.AfterSaveClearsOverlaps`.
- Overlap.AfterSaveCount: one round only, for the same reason as `Overlap.AfterSaveClearsOverlaps`.
- Overlap.AfterSaveLeavesOthers: one round only, for the same reason as `Overlap.AfterSaveClearsOverlaps`.
- Cascade.Save: runs the nested callbacks down to a depth bound `fuel`. A run cut off by the bound reports `done = false`. Database row order is taken to be key order, and the transaction and its rollback on an aborted destroy are not modelled beyond the refusal itself.
- GaplessPolicy.AdjustPreviousGap: describes one round. The corrective `save(validate: false)` of the stretched predecessor (gapless.rb:41) runs that sibling's own overlap resolution and gap closing, which can rewrite or destroy further records: in the jump update of `Scenarios.JumpLeavesOverlap` the stretched first assignment covers the head of the split last one. `Cascade.Adjust` models that nested save. When the stretched sibling overlaps no other, its own callbacks have nothing to resolve; this is proved for the destroy path only (`Cascade.DestroyedAgrees`).
- GaplessPolicy.AdjustNextGap: describes one round, for the same reason as `GaplessPolicy.AdjustPreviousGap`. The corrective save is at gapless.rb:51, and `Cascade.Adjust` models it.
- GaplessPolicy.AdjustGaps: describes one round, for the same reason as `GaplessPolicy.AdjustPreviousGap`. With the nested saves a record can be destroyed, so "keeps the keys" is a one-round promise.
- GaplessPolicy.DestroyErrors: checks only the two bounds. `before_gapless_destroy` also aborts when `errors` already holds an entry from earlier on the same instance (gapless.rb:63). The model starts every destroy from an empty error set.
- GaplessPolicy.Destroy: reads the bounds stored for the record. The gem's callbacks read the instance's in-memory bounds (gapless.rb:57, 60, 69, 71), which differ from the stored ones when the instance was edited and not saved. `Cascade.Destroyed` uses the bounds of the copy as it was read. It also describes one round: the save of the stretched predecessor (gapless.rb:72) runs that sibling's own callbacks, which truncate any sibling it now overlaps (`Scenarios.CrossedDestroyCascade`). `Cascade.DestroyedAgrees` proves the round and the nested callbacks agree when no point is covered twice before the destroy, as in a tiling.
- Callback registration order between the two modules. `Save` runs overlap resolution first and the gap hooks after it.
- Cross-save persistence of the `@overlaping_records` memo. The model computes it fresh for each save, as on a newly loaded record.
- The `new_record?` guard on `set_default_period` (model.rb:71-73). `SetDefaultPeriod` models the callback body.
- `Date.current`, `current`, `current?`, `within_date` and `from_date` (model.rb:23-41). They are clock-dependent query helpers with no effect on the siblings. "Today" is a parameter.
- The `siblings` hook and lib/periodic_records/associations.rb (accessors and batch preloading). One store is one parent's sibling group.
- Database row order. It is a parameter `order`, required to list every stored key once.
- The date/datetime representation. The timeline is plain integers and one step is one tick, except in `DatetimeStep`, which counts seconds.

## Findings

| source | as written | input that shows it | evidently intended | confidence | as-written member | corrected member |
|---|---|---|---|---|---|---|
| lib/periodic_records/model.rb:86-106 | boundaries move by `start_at - 1.day` and `end_at + 1.day` whatever the column type (also gapless.rb:38-50 and 69) | on a `datetime` column, `[0001-01-01, 9999-01-01]` split by 2014-05-01 09:20:00 .. 2014-05-06 13:45:00 yields a head ending 2014-04-30 09:20:00; model_spec.rb:191-198 expects 2014-05-01 09:19:59, and a day of coverage is lost | move a boundary by one step of the column's resolution (one second for `datetime`) | medium; not executed | DatetimeStep.DayStepLosesCoverage | Overlap.PiecesCoverDifference |
| lib/periodic_records/model.rb:82-84 | under the gapless policy the nested `destroy` of a sibling covered by the saved record runs `before_gapless_destroy` (gapless.rb:56-66), which refuses for a sibling starting at `MIN` | assignments `[MIN, 2018-01-15]`, `[2018-01-16, 2018-02-15]`, `[2018-02-16, MAX]`; update the middle one to `[MIN, 2018-02-15]`: the first assignment stays and the two overlap | the covered sibling is removed and the saved record takes over the `MIN` edge, leaving a tiling | medium; not executed | Scenarios.RefusedCascade | Lifecycle.SaveKeepsTiling |
| lib/periodic_records/model.rb:86-96 | the save of a split's head runs `adjust_next_gap` (gapless.rb:46-54), which drags the next record back over the new one; that record's own save destroys the new record | the same assignments; create `[2018-01-20, 2018-01-25]`: the chain of nested saves destroys it and restores the original three | the new record stays, between the two halves of the split middle assignment | medium; not executed | Scenarios.CreateIsUndone | Lifecycle.SaveKeepsTiling |

=== FILE: cascade.dfy ===
/** The callbacks that corrective writes trigger in turn. Every `destroy` and
    every `save(validate: false)` that overlap resolution or gap closing
    performs on a sibling runs that sibling's own callbacks: overlap
    resolution after each save and, for a gapless model, gap closing after
    each save and the destroy guard and predecessor stretch around each
    destroy. This module runs those nested callbacks, each on the in-memory
    copy of the record it belongs to, down to a nesting depth of `fuel`.
    For a plain model over siblings that do not overlap each other the
    nested callbacks find nothing to do, and a save is the one round of
    `Lifecycle.Save` (`PlainSaveAgrees`). Under the gapless policy they can
    change the outcome of a save (see `Scenarios`). */
module Cascade {
  import opened Results
  import opened Timeline
  import opened Records
  import opened Overlap
  import GaplessPolicy
  import Lifecycle

  /** The store after a run, and whether every nested callback ran
      (`false` when the depth bound cut one off). */
  datatype Run = Run(db: Store, done: bool)

  /** The stored keys in `[from, to)`, ascending: the row order of the
      queries the callbacks run. */
  function KeyOrder(recs: map<Id, Interval>, from: nat, to: nat): (o: seq<Id>)
    decreases to - from
    ensures forall i :: 0 <= i < |o| ==> from <= o[i] < to && o[i] in recs
    ensures forall k :: from <= k < to && k in recs ==> k in o
    ensures NoDuplicates(o)
  {
    if from >= to then []
    else if from in recs then [from] + KeyOrder(recs, from + 1, to)
    else KeyOrder(recs, from + 1, to)
  }

  /** All stored keys of `st`, ascending. */
  function RowOrder(st: Store): seq<Id> {
    KeyOrder(st.records, 0, st.nextId)
  }

  /** `siblings.within_interval(start_at, end_at)` run for the copy of
      record `self` whose bounds are `i`: the other stored records whose
      bounds overlap `i`, as read, in ascending key order. */
  function Scan(recs: map<Id, Interval>, self: Id, i: Interval, from: nat,
      to: nat): (memo: seq<(Id, Interval)>)
    decreases to - from
    ensures forall j :: 0 <= j < |memo| ==>
              && from <= memo[j].0 < to && memo[j].0 in recs && memo[j].0 != self
              && memo[j].1 == recs[memo[j].0] && Overlaps(memo[j].1, i)
  {
    if from >= to then []
    else
      (if from in recs && from != self && Overlaps(recs[from], i) then [(from, recs[from])] else [])
      + Scan(recs, self, i, from + 1, to)
  }

  /** The query misses no row: every stored record in the scanned range
      other than `self` whose bounds overlap `i` is returned, with its
      stored bounds. */
  lemma {:induction false} ScanComplete(recs: map<Id, Interval>, self: Id, i: Interval,
      from: nat, to: nat, k: Id)
    requires from <= k < to && k in recs && k != self && Overlaps(recs[k], i)
    ensures (k, recs[k]) in Scan(recs, self, i, from, to)
    decreases if from < to then to - from else 0
  {
    if from < k {
      ScanComplete(recs, self, i, from + 1, to, k);
    }
  }

  /** The query lists rows in ascending key order, each once. */
  lemma {:induction false} ScanAscending(recs: map<Id, Interval>, self: Id, i: Interval,
      from: nat, to: nat)
    ensures forall a, b :: 0 <= a < b < |Scan(recs, self, i, from, to)| ==>
              Scan(recs, self, i, from, to)[a].0 < Scan(recs, self, i, from, to)[b].0
    decreases if from < to then to - from else 0
  {
    if from < to {
      ScanAscending(recs, self, i, from + 1, to);
    }
  }

  /** When no row in the scanned range other than `self` overlaps `i`, the
      query comes back empty. */
  lemma {:induction false} ScanNone(recs: map<Id, Interval>, self: Id, i: Interval, from: nat,
      to: nat)
    requires forall j :: from <= j < to && j in recs && j != self ==> !Overlaps(recs[j], i)
    ensures Scan(recs, self, i, from, to) == []
    decreases if from < to then to - from else 0
  {
    if from < to {
      ScanNone(recs, self, i, from + 1, to);
    }
  }

  /** When `k` is the one row in the scanned range other than `self` that
      overlaps `i`, the query returns it alone, with its stored bounds. */
  lemma {:induction false} ScanOnly(recs: map<Id, Interval>, self: Id, i: Interval, from: nat,
      to: nat, k: Id)
    requires from <= k < to && k in recs && k != self && Overlaps(recs[k], i)
    requires forall j :: from <= j < to && j in recs && j != self && j != k ==>
               !Overlaps(recs[j], i)
    ensures Scan(recs, self, i, from, to) == [(k, recs[k])]
    decreases if from < to then to - from else 0
  {
    if from == k {
      ScanNone(recs, self, i, from + 1, to);
    } else {
      ScanOnly(recs, self, i, from + 1, to, k);
    }
  }

  /** Saving a copy of record `id` that was read with bounds `orig` and now
      holds `now`: only the changed columns are written, and a row deleted
      in the meantime stays deleted. */
  function WriteCopy(db: Store, id: Id, orig: Interval, now: Interval): (res: Store)
    ensures res.nextId == db.nextId && res.records.Keys == db.records.Keys
    ensures forall k :: k in db.records && k != id ==> res.records[k] == db.records[k]
    ensures id in db.records ==>
              && res.records[id].start
                 == (if now.start == orig.start then db.records[id].start else now.start)
              && res.records[id].end
                 == (if now.end == orig.end then db.records[id].end else now.end)
    ensures id in db.records && db.records[id] == orig ==> res.records == db.records[id := now]
  {
    if id in db.records then
      var row := db.records[id];
      var start := if now.start != orig.start then now.start else row.start;
      var end := if now.end != orig.end then now.end else row.end;
      db.(records := db.records[id := Interval(start, end)])
    else db
  }

  /** `i` with its bound `f` set to `v`. */
  function Put(i: Interval, f: Field, v: Time): Interval {
    match f
    case StartAt => Interval(v, i.end)
    case EndAt => Interval(i.start, v)
  }

  /** The after-save callbacks of a copy of record `id` whose bounds are now
      `c` and were `was` before the save (`None` for an insert):
      `adjust_overlaping_records`, then, for a gapless model, `adjust_gaps`. */
  function Saved(db: Store, id: Id, c: Interval, was: Option<Interval>, gapless: bool,
      fuel: nat): (run: Run)
    requires Wf(db)
    ensures Wf(run.db) && db.nextId <= run.db.nextId
    decreases fuel, 0, 0
  {
    if fuel == 0 then Run(db, false)
    else
      var a := Resolve(db, c, Scan(db.records, id, c, 0, db.nextId), gapless, fuel - 1);
      if !gapless then a
      else
        var b := if GaplessPolicy.StartMovedLater(c, was)
                 then Adjust(a.db, id, EndAt, Pred(was.value.start), EndAt, Pred(c.start), fuel - 1)
                 else Run(a.db, true);
        var e := if GaplessPolicy.EndMovedEarlier(c, was)
                 then Adjust(b.db, id, StartAt, Succ(was.value.end), StartAt, Succ(c.end), fuel - 1)
                 else Run(b.db, true);
        Run(e.db, a.done && b.done && e.done)
  }

  /** `overlaping_records.each`: the branch of each cached copy, chosen on
      the bounds the copy was read with, and the save or destroy it calls. */
  function Resolve(db: Store, r: Interval, memo: seq<(Id, Interval)>, gapless: bool,
      fuel: nat): (run: Run)
    requires Wf(db) && forall j :: 0 <= j < |memo| ==> memo[j].0 < db.nextId
    ensures Wf(run.db) && db.nextId <= run.db.nextId
    decreases fuel, 2, |memo|
  {
    if memo == [] then Run(db, true)
    else
      var a := Step(db, r, memo[0].0, memo[0].1, gapless, fuel);
      var rest := Resolve(a.db, r, memo[1..], gapless, fuel);
      Run(rest.db, a.done && rest.done)
  }

  /** The branch taken for the copy of record `id` read with bounds `s`,
      and the save or destroy it calls. */
  function Step(db: Store, r: Interval, id: Id, s: Interval, gapless: bool, fuel: nat): (run: Run)
    requires Wf(db) && id < db.nextId
    ensures Wf(run.db) && db.nextId <= run.db.nextId
    decreases fuel, 1, 1
  {
    match Classify(s, r)
    case Destroy => Destroyed(db, id, s, gapless, fuel)
    case Split =>
      var h := Saved(WriteCopy(db, id, s, Head(s, r)), id, Head(s, r), Some(s), gapless, fuel);
      var n := h.db.nextId;
      var t := Saved(Store(h.db.records[n := Tail(s, r)], n + 1), n, Tail(s, r), None,
                     gapless, fuel);
      Run(t.db, h.done && t.done)
    case TruncateEnd =>
      Saved(WriteCopy(db, id, s, Head(s, r)), id, Head(s, r), Some(s), gapless, fuel)
    case TruncateStart =>
      Saved(WriteCopy(db, id, s, Tail(s, r)), id, Tail(s, r), Some(s), gapless, fuel)
    case Skip => Run(db, true)
  }

  /** `destroy` on the copy of record `id` read with bounds `s`. A gapless
      model refuses when the copy starts at MIN or ends at MAX; otherwise
      the row goes and, for a gapless model, the first sibling ending one
      step before the copy's start is stretched to the copy's end. */
  function Destroyed(db: Store, id: Id, s: Interval, gapless: bool, fuel: nat): (run: Run)
    requires Wf(db)
    ensures Wf(run.db) && db.nextId <= run.db.nextId
    decreases fuel, 1, 0
  {
    if gapless && GaplessPolicy.DestroyErrors(s) != {} then Run(db, true)
    else
      var rest := db.(records := db.records - {id});
      if !gapless then Run(rest, true)
      else Adjust(rest, id, EndAt, Pred(s.start), EndAt, s.end, fuel)
  }

  /** The first sibling of `self` whose bound `f` is `t`
      (`siblings.where(...).first`), loaded afresh, gets bound `g` set to
      `v` and is saved with its callbacks. */
  function Adjust(db: Store, self: Id, f: Field, t: Time, g: Field, v: Time, fuel: nat): (run: Run)
    requires Wf(db)
    ensures Wf(run.db) && db.nextId <= run.db.nextId
    decreases fuel, 0, 1
  {
    match FindSibling(db, self, f, t)
    case None => Run(db, true)
    case Some(k) =>
      var prior := db.records[k];
      var now := Put(prior, g, v);
      Saved(WriteCopy(db, k, prior, now), k, now, Some(prior), true, fuel)
  }

  /** A save with all its nested callbacks: the validations of
      `Lifecycle.SaveErrors`, the write, then the saved record's callbacks. */
  function Save(st: Store, target: Lifecycle.Target, d: Draft, gapless: bool,
      fuel: nat): (res: Result<Run, set<Error>>)
    requires Wf(st) && Lifecycle.Targets(st, target)
    ensures res.Failure? <==> Lifecycle.SaveErrors(st, target, d, gapless) != {}
    ensures res.Success? ==> Wf(res.value.db)
  {
    var errs := Lifecycle.SaveErrors(st, target, d, gapless);
    if errs != {} then Failure(errs)
    else
      Success(Saved(Lifecycle.Write(st, target, d.Bounds()), Lifecycle.SavedId(st, target),
                    d.Bounds(), Lifecycle.Was(st, target), gapless, fuel))
  }

  // ---------------------------------------------------------------------
  // A plain model over disjoint siblings: the nested callbacks are idle
  // ---------------------------------------------------------------------

  /** Scanning in ascending key order is the cached overlap query run over
      the ascending row order. */
  lemma {:induction false} ScanIsOverlapping(recs: map<Id, Interval>, self: Id, from: nat, to: nat)
    requires self in recs
    ensures Scan(recs, self, recs[self], from, to)
            == Overlapping(recs, self, KeyOrder(recs, from, to))
    decreases if from < to then to - from else 0
  {
    if from < to {
      ScanIsOverlapping(recs, self, from + 1, to);
      var rest := KeyOrder(recs, from + 1, to);
      if from in recs {
        var o := [from] + rest;
        assert KeyOrder(recs, from, to) == o;
        assert o[0] == from && o[1..] == rest;
        assert Overlapping(recs, self, o)
               == if from != self && Overlaps(recs[from], recs[self])
                  then [(from, recs[from])] + Overlapping(recs, self, rest)
                  else Overlapping(recs, self, rest);
      } else {
        assert KeyOrder(recs, from, to) == rest;
      }
    }
  }

  /** A piece left of a sibling shares no point with any other record, when
      the siblings did not overlap each other. */
  lemma PieceIsAlone(recs: map<Id, Interval>, rid: Id, r: Interval, id: Id, s: Interval,
      p: Interval, k: Id)
    requires AllValid(recs) && AtMostOneCovers(recs - {rid})
    requires rid in recs && recs[rid] == r && r.Valid()
    requires id in recs && id != rid && recs[id] == s && Overlaps(s, r)
    requires p in Pieces(s, r)
    requires k in recs && k != id
    ensures !Overlaps(recs[k], p)
  {
    PiecesCoverDifference(s, r);
    var j :| 0 <= j < |Pieces(s, r)| && Pieces(s, r)[j] == p;
    if k == rid {
      assert !Overlaps(p, r);
    } else {
      forall t | p.Contains(t) ensures !recs[k].Contains(t) {
        assert s.Contains(t);
        assert (recs - {rid})[id].Contains(t);
        assert k in (recs - {rid});
      }
      OverlapsIffSharedPoint(recs[k], p);
    }
  }

  /** The save of one piece finds no overlapping sibling, so its nested
      callbacks leave the store as it is. */
  lemma PieceSaveIdle(db: Store, id: Id, p: Interval, was: Option<Interval>, fuel: nat)
    requires Wf(db) && id in db.records && db.records[id] == p
    requires forall k :: k in db.records && k != id ==> !Overlaps(db.records[k], p)
    ensures Saved(db, id, p, was, false, fuel) == Run(db, fuel >= 1)
  {
  }

  /** A piece written over the copy it was cut from overlaps no other
      record, so its save changes nothing more. */
  lemma CopyIsAlone(db: Store, rid: Id, r: Interval, id: Id, s: Interval, p: Interval, fuel: nat)
    requires Wf(db) && AllValid(db.records) && AtMostOneCovers(db.records - {rid})
    requires rid in db.records && db.records[rid] == r && r.Valid()
    requires id in db.records && id != rid && db.records[id] == s && Overlaps(s, r)
    requires p in Pieces(s, r)
    ensures WriteCopy(db, id, s, p) == db.(records := db.records[id := p])
    ensures Saved(WriteCopy(db, id, s, p), id, p, Some(s), false, fuel)
            == Run(WriteCopy(db, id, s, p), fuel >= 1)
  {
    var db1 := WriteCopy(db, id, s, p);
    forall k | k in db1.records && k != id ensures !Overlaps(db1.records[k], p) {
      PieceIsAlone(db.records, rid, r, id, s, p, k);
    }
    PieceSaveIdle(db1, id, p, Some(s), fuel);
  }

  /** The tail of a split, inserted as a new row next to the head, overlaps
      no other record, so its save changes nothing more. */
  lemma TailIsAlone(db: Store, rid: Id, r: Interval, id: Id, s: Interval, fuel: nat)
    requires Wf(db) && AllValid(db.records) && AtMostOneCovers(db.records - {rid})
    requires rid in db.records && db.records[rid] == r && r.Valid()
    requires id in db.records && id != rid && db.records[id] == s && Overlaps(s, r)
    requires Classify(s, r) == Split
    ensures var db2 := Store(db.records[id := Head(s, r)][db.nextId := Tail(s, r)], db.nextId + 1);
            Saved(db2, db.nextId, Tail(s, r), None, false, fuel) == Run(db2, fuel >= 1)
  {
    var hd, tl := Head(s, r), Tail(s, r);
    PiecesCoverDifference(s, r);
    assert Pieces(s, r) == [hd, tl];
    var n := db.nextId;
    var db2 := Store(db.records[id := hd][n := tl], n + 1);
    forall k | k in db2.records && k != n ensures !Overlaps(db2.records[k], tl) {
      if k == id {
        OverlapsIffSharedPoint(hd, tl);
      } else {
        PieceIsAlone(db.records, rid, r, id, s, tl, k);
      }
    }
    PieceSaveIdle(db2, n, tl, None, fuel);
  }

  /** A visited sibling that is split keeps its head in place and gains
      its tail as a new row, and neither save changes anything more. */
  lemma SplitAgrees(db: Store, rid: Id, r: Interval, id: Id, s: Interval, fuel: nat)
    requires Wf(db) && AllValid(db.records) && AtMostOneCovers(db.records - {rid})
    requires rid in db.records && db.records[rid] == r && r.Valid()
    requires id in db.records && id != rid && db.records[id] == s && Overlaps(s, r)
    requires Classify(s, r) == Split
    ensures Step(db, r, id, s, false, fuel).db == ResolveOne(db, r, id, s)
    ensures fuel >= 1 ==> Step(db, r, id, s, false, fuel).done
  {
    PiecesCoverDifference(s, r);
    assert Pieces(s, r) == [Head(s, r), Tail(s, r)];
    CopyIsAlone(db, rid, r, id, s, Head(s, r), fuel);
    TailIsAlone(db, rid, r, id, s, fuel);
  }

  /** A visited sibling that is truncated is rewritten to its one piece,
      whose save changes nothing more. */
  lemma TruncateAgrees(db: Store, rid: Id, r: Interval, id: Id, s: Interval, fuel: nat)
    requires Wf(db) && AllValid(db.records) && AtMostOneCovers(db.records - {rid})
    requires rid in db.records && db.records[rid] == r && r.Valid()
    requires id in db.records && id != rid && db.records[id] == s && Overlaps(s, r)
    requires Classify(s, r) == TruncateEnd || Classify(s, r) == TruncateStart
    ensures Step(db, r, id, s, false, fuel).db == ResolveOne(db, r, id, s)
    ensures fuel >= 1 ==> Step(db, r, id, s, false, fuel).done
  {
    PiecesCoverDifference(s, r);
    var p := if Classify(s, r) == TruncateEnd then Head(s, r) else Tail(s, r);
    assert Pieces(s, r) == [p];
    CopyIsAlone(db, rid, r, id, s, p, fuel);
  }

  /** One visited sibling, with idle nested callbacks, leaves what one step
      of `ResolveEach` leaves. */
  lemma StepAgrees(db: Store, rid: Id, r: Interval, id: Id, s: Interval, fuel: nat)
    requires Wf(db) && AllValid(db.records) && AtMostOneCovers(db.records - {rid})
    requires rid in db.records && db.records[rid] == r && r.Valid()
    requires id in db.records && id != rid && db.records[id] == s && Overlaps(s, r)
    ensures Step(db, r, id, s, false, fuel).db == ResolveOne(db, r, id, s)
    ensures fuel >= 1 ==> Step(db, r, id, s, false, fuel).done
  {
    match Classify(s, r)
    case Destroy =>
    case Split => SplitAgrees(db, rid, r, id, s, fuel);
    case TruncateEnd => TruncateAgrees(db, rid, r, id, s, fuel);
    case TruncateStart => TruncateAgrees(db, rid, r, id, s, fuel);
    case Skip =>
  }

  /** A visit of a single cached copy is the one step it takes. */
  lemma ResolveSingle(db: Store, r: Interval, id: Id, s: Interval, gapless: bool, fuel: nat)
    requires Wf(db) && id < db.nextId
    ensures Resolve(db, r, [(id, s)], gapless, fuel) == Step(db, r, id, s, gapless, fuel)
  {
    var one: seq<(Id, Interval)> := [(id, s)];
    assert one[1..] == [];
  }

  /** One step keeps every stored interval well formed. */
  lemma StepValid(db: Store, rid: Id, r: Interval, memo: seq<(Id, Interval)>)
    requires Inv(db, rid, r, memo) && memo != [] && AllValid(db.records)
    ensures AllValid(ResolveOne(db, r, memo[0].0, memo[0].1).records)
  {
    ResolveEachValid(db, rid, r, [memo[0]]);
    var one: seq<(Id, Interval)> := [memo[0]];
    assert |one[1..]| == 0;
  }

  /** In a plain model over siblings that do not overlap each other, the
      visit with nested callbacks is the one round of `ResolveEach`. */
  lemma {:induction false} ResolveAgrees(db: Store, rid: Id, r: Interval,
      memo: seq<(Id, Interval)>, fuel: nat)
    requires Inv(db, rid, r, memo) && AllValid(db.records) && AtMostOneCovers(db.records - {rid})
    ensures Resolve(db, r, memo, false, fuel).db == ResolveEach(db, r, memo)
    ensures fuel >= 1 ==> Resolve(db, r, memo, false, fuel).done
    decreases |memo|
  {
    if memo != [] {
      var id, s := memo[0].0, memo[0].1;
      StepAgrees(db, rid, r, id, s, fuel);
      var db' := ResolveOne(db, r, id, s);
      InvStep(db, rid, r, memo);
      StepSeparates(db, rid, r, id, s);
      StepValid(db, rid, r, memo);
      ResolveAgrees(db', rid, r, memo[1..], fuel);
    }
  }

  /** In a plain model the callbacks of the saved record are the visit of
      its cached overlap set, read in ascending key order. */
  lemma SavedIsResolve(st: Store, rid: Id, was: Option<Interval>, fuel: nat)
    requires Wf(st) && rid in st.records && fuel >= 1
    ensures Saved(st, rid, st.records[rid], was, false, fuel)
            == Resolve(st, st.records[rid], Overlapping(st.records, rid, RowOrder(st)), false,
                       fuel - 1)
  {
    ScanIsOverlapping(st.records, rid, 0, st.nextId);
  }

  /** The saved record `rid` is stored among well-formed records whose
      other members do not overlap each other. */
  ghost predicate SiblingsDisjoint(st: Store, rid: Id) {
    && Wf(st) && rid in st.records
    && AllValid(st.records) && AtMostOneCovers(st.records - {rid})
  }

  /** The visit of the saved record's cached overlap set, when the other
      records do not overlap each other, is one round of `AfterSave`. */
  lemma ResolveIsAfterSave(st: Store, rid: Id, fuel: nat)
    requires SiblingsDisjoint(st, rid)
    ensures Resolve(st, st.records[rid], Overlapping(st.records, rid, RowOrder(st)), false, fuel).db
            == AfterSave(st, rid, RowOrder(st))
    ensures fuel >= 1 ==>
              Resolve(st, st.records[rid], Overlapping(st.records, rid, RowOrder(st)), false,
                      fuel).done
  {
    var order := RowOrder(st);
    assert Ready(st, rid, order);
    ReadyInv(st, rid, order);
    ResolveAgrees(st, rid, st.records[rid], Overlapping(st.records, rid, order), fuel);
  }

  /** The callbacks of the saved record itself, in a plain model whose
      other records do not overlap each other, are one round of
      `AfterSave` over the ascending row order. */
  lemma SavedAgrees(st: Store, rid: Id, was: Option<Interval>, fuel: nat)
    requires SiblingsDisjoint(st, rid)
    ensures Saved(st, rid, st.records[rid], was, false, fuel + 1).db
            == AfterSave(st, rid, RowOrder(st))
    ensures fuel >= 1 ==> Saved(st, rid, st.records[rid], was, false, fuel + 1).done
  {
    SavedIsResolve(st, rid, was, fuel + 1);
    ResolveIsAfterSave(st, rid, fuel);
  }

  /** The row written by a plain save that passes validation sits among
      siblings that are still disjoint, and every stored row is listed. */
  lemma WrittenIsDisjoint(st: Store, target: Lifecycle.Target, d: Draft)
    requires Wf(st) && Lifecycle.Targets(st, target)
    requires AllValid(st.records) && AtMostOneCovers(st.records - {Lifecycle.SavedId(st, target)})
    requires Lifecycle.SaveErrors(st, target, d, false) == {}
    ensures SiblingsDisjoint(Lifecycle.Write(st, target, d.Bounds()), Lifecycle.SavedId(st, target))
    ensures Lifecycle.Lists(RowOrder(Lifecycle.Write(st, target, d.Bounds())), st)
    ensures Lifecycle.Write(st, target, d.Bounds()).records[Lifecycle.SavedId(st, target)]
            == d.Bounds()
  {
    var rid := Lifecycle.SavedId(st, target);
    var st1 := Lifecycle.Write(st, target, d.Bounds());
    assert st1.records - {rid} == st.records - {rid};
    assert AllValid(st1.records);
  }

  /** With validation passed, the one-round plain save is `AfterSave` of
      the written store. */
  lemma OneRoundIsAfterSave(st: Store, target: Lifecycle.Target, d: Draft)
    requires Wf(st) && Lifecycle.Targets(st, target)
    requires Lifecycle.SaveErrors(st, target, d, false) == {}
    requires Lifecycle.Lists(RowOrder(Lifecycle.Write(st, target, d.Bounds())), st)
    ensures Lifecycle.Save(st, target, d, RowOrder(Lifecycle.Write(st, target, d.Bounds())), false)
            == Success(AfterSave(Lifecycle.Write(st, target, d.Bounds()),
                                 Lifecycle.SavedId(st, target),
                                 RowOrder(Lifecycle.Write(st, target, d.Bounds()))))
  {
  }

  /** A plain save over siblings that do not overlap each other, at any
      nesting depth of at least one, does what the one-round
      `Lifecycle.Save` does with the rows visited in key order; from depth
      two on every nested callback runs. */
  lemma PlainSaveAgrees(st: Store, target: Lifecycle.Target, d: Draft, fuel: nat)
    requires Wf(st) && Lifecycle.Targets(st, target)
    requires AllValid(st.records) && AtMostOneCovers(st.records - {Lifecycle.SavedId(st, target)})
    ensures Lifecycle.SaveErrors(st, target, d, false) == {} ==>
              && Lifecycle.Lists(RowOrder(Lifecycle.Write(st, target, d.Bounds())), st)
              && Save(st, target, d, false, fuel + 1).Success?
              && Save(st, target, d, false, fuel + 1).value.db
                 == Lifecycle.Save(st, target, d, RowOrder(Lifecycle.Write(st, target, d.Bounds())),
                                   false).value
              && (fuel >= 1 ==> Save(st, target, d, false, fuel + 1).value.done)
  {
    if Lifecycle.SaveErrors(st, target, d, false) == {} {
      WrittenIsDisjoint(st, target, d);
      OneRoundIsAfterSave(st, target, d);
      SavedAgrees(Lifecycle.Write(st, target, d.Bounds()), Lifecycle.SavedId(st, target),
                  Lifecycle.Was(st, target), fuel);
    }
  }

  /** A gapless destroy over siblings no point of which is covered twice,
      with its nested callbacks, is `GaplessPolicy.Destroy`: the stretched
      predecessor now covers only points nobody else covers, so its save
      finds no overlapping sibling and no moved gap. A refused destroy
      leaves the store as it was. */
  lemma DestroyedAgrees(st: Store, rid: Id, fuel: nat)
    requires Wf(st) && rid in st.records
    requires AllValid(st.records) && AtMostOneCovers(st.records)
    ensures GaplessPolicy.Destroy(st, rid).Failure? ==>
              Destroyed(st, rid, st.records[rid], true, fuel) == Run(st, true)
    ensures GaplessPolicy.Destroy(st, rid).Success? ==>
              && Destroyed(st, rid, st.records[rid], true, fuel).db
                 == GaplessPolicy.Destroy(st, rid).value
              && (fuel >= 1 ==> Destroyed(st, rid, st.records[rid], true, fuel).done)
  {
    var r := st.records[rid];
    if GaplessPolicy.DestroyErrors(r) == {} {
      var rest := st.(records := st.records - {rid});
      assert AllValid(rest.records) && AtMostOneCovers(rest.records);
      match FindSibling(rest, rid, EndAt, Pred(r.start))
      case None =>
      case Some(k) =>
        var prior := rest.records[k];
        var now := Put(prior, EndAt, r.end);
        var res := WriteCopy(rest, k, prior, now);
        assert res == GaplessPolicy.Destroy(st, rid).value;
        assert res.records[k] == now;
        forall j | j in res.records && j != k
          ensures !Overlaps(res.records[j], now)
        {
          assert res.records[j] == st.records[j] && j != rid;
          OverlapsIffSharedPoint(res.records[j], now);
          forall t | now.Contains(t) && !prior.Contains(t)
            ensures r.Contains(t)
          {
          }
        }
        ScanNone(res.records, k, now, 0, res.nextId);
        assert Destroyed(st, rid, r, true, fuel) == Saved(res, k, now, Some(prior), true, fuel);
        assert !GaplessPolicy.StartMovedLater(now, Some(prior));
        assert !GaplessPolicy.EndMovedEarlier(now, Some(prior));
        if fuel >= 1 {
          assert Resolve(res, now, [], true, fuel - 1) == Run(res, true);
        }
    }
  }
}

=== FILE: datetime_step.dfy ===
/** Overlap resolution on a `datetime` column, where one tick of the
    timeline is one second. The branches still move boundaries by `1.day`,
    so the pieces written back end a day, not a tick, short of the saved
    record. This module states that behaviour and the span it loses. */
module DatetimeStep {
  import opened Timeline
  import opened Overlap

  /** `1.day` in ticks of a seconds timeline. */
  const DayInSeconds: int := 86400

  /** The pieces that replace sibling `s` when every boundary moves by a day
      instead of a tick, as the branches do on a `datetime` column. */
  function DayStepPieces(s: Interval, r: Interval): seq<Interval> {
    var head := Interval(s.start, r.start - DayInSeconds);
    var tail := Interval(r.end + DayInSeconds, s.end);
    match Classify(s, r)
    case Destroy => []
    case Split => [head, tail]
    case TruncateEnd => [head]
    case TruncateStart => [tail]
    case Skip => [s]
  }

  /** Whenever a sibling is cut before the saved record (split or
      truncated end), the second just before the saved record belonged to
      the sibling, lies outside the saved record, and is covered by no piece:
      the sibling group loses coverage. */
  lemma DayStepLosesCoverage(s: Interval, r: Interval)
    requires Overlaps(s, r) && r.Valid()
    requires Classify(s, r) == Split || Classify(s, r) == TruncateEnd
    ensures s.Contains(Pred(r.start)) && !r.Contains(Pred(r.start))
    ensures !InSome(DayStepPieces(s, r), Pred(r.start))
    ensures InSome(Pieces(s, r), Pred(r.start))
  {
    PiecesCoverDifference(s, r);
  }

  /** The split of a lone `[MIN, MAX]` record by a record saved for
      2014-05-01 09:20:00 .. 2014-05-06 13:45:00, counted in seconds since
      0001-01-01: the head piece ends at 2014-04-30 09:20:00, where the
      one-tick step gives 2014-05-01 09:19:59. */
  lemma DayStepSplitExample()
    ensures var s := Interval(0, 315506361600);
            var r := Interval(63534532800, 63534980700);
            && DayStepPieces(s, r)[0] == Interval(0, 63534446400)
            && Pieces(s, r)[0] == Interval(0, 63534532799)
            && DayStepPieces(s, r)[1] == Interval(63535067100, 315506361600)
            && Pieces(s, r)[1] == Interval(63534980701, 315506361600)
  {
  }
}

=== FILE: gapless.dfy ===
/** The gapless policy (`PeriodicRecords::Gapless`): the first record must
    keep starting at MIN and the last must keep ending at MAX; when a save
    pulls a boundary inwards, or a record is destroyed, the neighbouring
    sibling is stretched over the freed span. */
module GaplessPolicy {
  import opened Results
  import opened Timeline
  import opened Records

  /** `validate_gapless_start_at` and `validate_gapless_end_at`. `was` holds
      the persisted bounds, `None` for a record never saved. A start may not
      move away from MIN and an end may not move away from MAX. */
  function GaplessErrors(was: Option<Interval>, d: Draft): (errs: set<Error>)
    ensures Invalid(StartAt) in errs <==> was.Some? && was.value.start == MIN && d.start != Some(MIN)
    ensures Invalid(EndAt) in errs <==> was.Some? && was.value.end == MAX && d.end != Some(MAX)
    ensures Blank(StartAt) !in errs && Blank(EndAt) !in errs
  {
    (if was.Some? && d.start != Some(was.value.start) && was.value.start == MIN then {Invalid(StartAt)} else {})
    + (if was.Some? && d.end != Some(was.value.end) && was.value.end == MAX then {Invalid(EndAt)} else {})
  }

  /** The save moved the start later than its persisted value. */
  predicate StartMovedLater(r: Interval, was: Option<Interval>) {
    was.Some? && r.start > was.value.start
  }

  /** The save moved the end earlier than its persisted value. */
  predicate EndMovedEarlier(r: Interval, was: Option<Interval>) {
    was.Some? && r.end < was.value.end
  }

  /** `adjust_previous_gap`: when the start of `rid` moved later, the first
      sibling that ended one step before the old start is stretched to end
      one step before the new start. The guard is a later start, as
      gapless.rb:37 compares, and a later start is what
      gapless_spec.rb:65-71 exercises; a start moved earlier changes
      nothing here. */
  function AdjustPreviousGap(st: Store, rid: Id, was: Option<Interval>): (res: Store)
    requires Wf(st) && rid in st.records
    ensures Wf(res) && res.nextId == st.nextId && res.records.Keys == st.records.Keys
    ensures res.records[rid] == st.records[rid]
    ensures forall k :: k in st.records ==> res.records[k].start == st.records[k].start
    ensures !StartMovedLater(st.records[rid], was) ==> res == st
    ensures forall k :: k in st.records && res.records[k] != st.records[k] ==>
              && StartMovedLater(st.records[rid], was)
              && IsFirstMatch(st.records, rid, EndAt, Pred(was.value.start), k)
    ensures StartMovedLater(st.records[rid], was) ==>
              forall k :: IsFirstMatch(st.records, rid, EndAt, Pred(was.value.start), k) ==>
                res.records[k] == Interval(st.records[k].start, Pred(st.records[rid].start))
    ensures forall k :: k in st.records && k != rid && !Overlaps(st.records[k], st.records[rid]) ==>
              !Overlaps(res.records[k], st.records[rid])
  {
    var r := st.records[rid];
    if StartMovedLater(r, was) then
      match FindSibling(st, rid, EndAt, Pred(was.value.start))
      case Some(k) => st.(records := st.records[k := Interval(st.records[k].start, Pred(r.start))])
      case None => st
    else st
  }

  /** `adjust_next_gap`: when the end of `rid` moved earlier, the first
      sibling that started one step after the old end is stretched to start
      one step after the new end. */
  function AdjustNextGap(st: Store, rid: Id, was: Option<Interval>): (res: Store)
    requires Wf(st) && rid in st.records
    ensures Wf(res) && res.nextId == st.nextId && res.records.Keys == st.records.Keys
    ensures res.records[rid] == st.records[rid]
    ensures forall k :: k in st.records ==> res.records[k].end == st.records[k].end
    ensures !EndMovedEarlier(st.records[rid], was) ==> res == st
    ensures forall k :: k in st.records && res.records[k] != st.records[k] ==>
              && EndMovedEarlier(st.records[rid], was)
              && IsFirstMatch(st.records, rid, StartAt, Succ(was.value.end), k)
    ensures EndMovedEarlier(st.records[rid], was) ==>
              forall k :: IsFirstMatch(st.records, rid, StartAt, Succ(was.value.end), k) ==>
                res.records[k] == Interval(Succ(st.records[rid].end), st.records[k].end)
    ensures forall k :: k in st.records && k != rid && !Overlaps(st.records[k], st.records[rid]) ==>
              !Overlaps(res.records[k], st.records[rid])
  {
    var r := st.records[rid];
    if EndMovedEarlier(r, was) then
      match FindSibling(st, rid, StartAt, Succ(was.value.end))
      case Some(k) => st.(records := st.records[k := Interval(Succ(r.end), st.records[k].end)])
      case None => st
    else st
  }

  /** `adjust_gaps`: the previous gap first, then the next one. */
  function AdjustGaps(st: Store, rid: Id, was: Option<Interval>): (res: Store)
    requires Wf(st) && rid in st.records
    ensures Wf(res) && res.nextId == st.nextId && res.records.Keys == st.records.Keys
    ensures res.records[rid] == st.records[rid]
    ensures !StartMovedLater(st.records[rid], was) && !EndMovedEarlier(st.records[rid], was) ==> res == st
    ensures forall k :: k in st.records && k != rid && !Overlaps(st.records[k], st.records[rid]) ==>
              !Overlaps(res.records[k], st.records[rid])
  {
    AdjustNextGap(AdjustPreviousGap(st, rid, was), rid, was)
  }

  /** `before_gapless_destroy`: the first and the last record may not be
      destroyed. */
  function DestroyErrors(r: Interval): (errs: set<Error>)
    ensures errs == {} <==> r.start != MIN && r.end != MAX
    ensures Invalid(StartAt) in errs <==> r.start == MIN
    ensures Invalid(EndAt) in errs <==> r.end == MAX
    ensures Blank(StartAt) !in errs && Blank(EndAt) !in errs
  {
    (if r.start == MIN then {Invalid(StartAt)} else {})
    + (if r.end == MAX then {Invalid(EndAt)} else {})
  }

  /** Destroying `rid` under the gapless policy. A refused destroy returns
      the errors and the caller's store stays as it was; otherwise the record
      is removed (`after_gapless_destroy`) and the first sibling that ended one
      step before it now ends where it ended. */
  function Destroy(st: Store, rid: Id): (res: Result<Store, set<Error>>)
    requires Wf(st) && rid in st.records
    ensures res.Failure? <==> st.records[rid].start == MIN || st.records[rid].end == MAX
    ensures res.Failure? ==> res.error != {}
    ensures res.Success? ==>
              && Wf(res.value) && res.value.nextId == st.nextId
              && res.value.records.Keys == st.records.Keys - {rid}
    ensures res.Success? ==>
              forall k :: k in res.value.records && res.value.records[k] != st.records[k] ==>
                IsFirstMatch(st.records, rid, EndAt, Pred(st.records[rid].start), k)
    ensures res.Success? ==>
              forall k :: IsFirstMatch(st.records, rid, EndAt, Pred(st.records[rid].start), k) ==>
                res.value.records[k] == Interval(st.records[k].start, st.records[rid].end)
  {
    var r := st.records[rid];
    var errs := DestroyErrors(r);
    if errs != {} then Failure(errs)
    else
      var rest := st.(records := st.records - {rid});
      assert forall k :: IsMatch(rest.records, rid, EndAt, Pred(r.start), k)
                         <==> IsMatch(st.records, rid, EndAt, Pred(r.start), k);
      match FindSibling(rest, rid, EndAt, Pred(r.start))
      case Some(k) => Success(rest.(records := rest.records[k := Interval(rest.records[k].start, r.end)]))
      case None => Success(rest)
  }

  // ---------------------------------------------------------------------
  // Tiling
  // ---------------------------------------------------------------------

  /** Stretching record `k` to `w`, over points nobody else covers, keeps
      bounds ordered and points covered at most once, and adds exactly the
      points of `w` to the coverage. */
  lemma Widen(recs: map<Id, Interval>, k: Id, w: Interval)
    requires AllValid(recs) && AtMostOneCovers(recs) && k in recs && w.Valid()
    requires forall t :: recs[k].Contains(t) ==> w.Contains(t)
    requires forall t :: w.Contains(t) && !recs[k].Contains(t) ==> !Covered(recs, t)
    ensures AllValid(recs[k := w]) && AtMostOneCovers(recs[k := w])
    ensures forall t :: Covered(recs[k := w], t) <==> Covered(recs, t) || w.Contains(t)
  {
    var recs' := recs[k := w];
    forall i, j, t | i in recs' && j in recs' && recs'[i].Contains(t) && recs'[j].Contains(t)
      ensures i == j
    {
      if i == k && j != k && !recs[k].Contains(t) {
        assert Covered(recs, t) by { assert recs[j].Contains(t); }
      } else if j == k && i != k && !recs[k].Contains(t) {
        assert Covered(recs, t) by { assert recs[i].Contains(t); }
      }
    }
    forall t | Covered(recs, t) || w.Contains(t)
      ensures Covered(recs', t)
    {
      if w.Contains(t) {
        assert recs'[k].Contains(t);
      } else {
        var i :| i in recs && recs[i].Contains(t);
        if i == k {
          assert false;
        }
        assert recs'[i].Contains(t);
      }
    }
  }

  /** In a tiling, the record just before `rid` exists whenever `rid` does
      not start at MIN, and it ends one step before `rid` starts. */
  lemma PredecessorInTiling(recs: map<Id, Interval>, rid: Id) returns (k: Id)
    requires Tiles(recs) && rid in recs && recs[rid].start != MIN
    ensures k in recs && k != rid && recs[k].end == Pred(recs[rid].start)
  {
    var r := recs[rid];
    assert Covered(recs, r.start) by { assert recs[rid].Contains(r.start); }
    assert Covered(recs, Pred(r.start));
    k :| k in recs && recs[k].Contains(Pred(r.start));
    assert recs[k].Contains(r.start) ==> k == rid;
  }

  /** In a tiling, the record just after `rid` exists whenever `rid` does
      not end at MAX, and it starts one step after `rid` ends. */
  lemma SuccessorInTiling(recs: map<Id, Interval>, rid: Id) returns (k: Id)
    requires Tiles(recs) && rid in recs && recs[rid].end != MAX
    ensures k in recs && k != rid && recs[k].start == Succ(recs[rid].end)
  {
    var r := recs[rid];
    assert Covered(recs, r.end) by { assert recs[rid].Contains(r.end); }
    assert Covered(recs, Succ(r.end));
    k :| k in recs && recs[k].Contains(Succ(r.end));
    assert recs[k].Contains(r.end) ==> k == rid;
  }

  /** A destroy the policy allows keeps a tiling of `[MIN, MAX]` a tiling:
      the predecessor takes over exactly the span the record freed. */
  lemma DestroyKeepsTiling(st: Store, rid: Id)
    requires Wf(st) && rid in st.records && Tiles(st.records)
    requires Destroy(st, rid).Success?
    ensures Tiles(Destroy(st, rid).value.records)
  {
    var r := st.records[rid];
    var k := PredecessorInTiling(st.records, rid);
    var rest := st.(records := st.records - {rid});
    assert IsMatch(rest.records, rid, EndAt, Pred(r.start), k);
    FindSiblingCovering(rest, rid, EndAt, Pred(r.start), k);
    assert IsFirstMatch(st.records, rid, EndAt, Pred(r.start), k);
    var w := Interval(st.records[k].start, r.end);
    forall t | w.Contains(t) && !rest.records[k].Contains(t)
      ensures !Covered(rest.records, t)
    {
      assert r.Contains(t);
    }
    Widen(rest.records, k, w);
    assert Destroy(st, rid).value.records == rest.records[k := w];
    forall t
      ensures Covered(st.records, t) <==> Covered(rest.records, t) || w.Contains(t)
    {
      if Covered(st.records, t) && !r.Contains(t) {
        var i :| i in st.records && st.records[i].Contains(t);
        assert rest.records[i].Contains(t);
      }
      if w.Contains(t) && !r.Contains(t) {
        assert st.records[k].Contains(t);
      }
      if r.Contains(t) {
        assert st.records[rid].Contains(t);
      }
    }
  }
}

=== FILE: lifecycle.dfy ===
/** The save and destroy sequences of a periodic record, written out as
    explicit steps instead of persistence callbacks: validation, the write,
    overlap resolution and, for gapless records, gap adjustment. */
module Lifecycle {
  import opened Results
  import opened Timeline
  import opened Records
  import opened Overlap
  import opened GaplessPolicy

  /** Which record a save writes: a new one, which receives the next key,
      or a stored one. */
  datatype Target = Create | Update(id: Id)

  predicate Targets(st: Store, target: Target) {
    target.Update? ==> target.id in st.records
  }

  /** `order` is the storage's row order: every stored key once. */
  predicate Lists(order: seq<Id>, st: Store) {
    NoDuplicates(order) && forall k :: k in st.records ==> k in order
  }

  function SavedId(st: Store, target: Target): Id {
    if target.Create? then st.nextId else target.id
  }

  /** The persisted bounds before the save (`start_at_was`, `end_at_was`). */
  function Was(st: Store, target: Target): (was: Option<Interval>)
    requires Targets(st, target)
    ensures was.Some? <==> target.Update?
  {
    if target.Create? then None else Some(st.records[target.id])
  }

  /** Every validation that runs before a save. */
  function SaveErrors(st: Store, target: Target, d: Draft, gapless: bool): (errs: set<Error>)
    requires Targets(st, target)
    ensures errs == {} ==> d.Complete() && d.Bounds().Valid()
    ensures gapless && errs == {} && target.Update? && st.records[target.id].start == MIN ==> d.start == Some(MIN)
    ensures gapless && errs == {} && target.Update? && st.records[target.id].end == MAX ==> d.end == Some(MAX)
  {
    Validate(d) + (if gapless then GaplessErrors(Was(st, target), d) else {})
  }

  /** The write itself: the saved record takes its new bounds. */
  function Write(st: Store, target: Target, i: Interval): (st': Store)
    requires Wf(st) && Targets(st, target)
    ensures Wf(st') && SavedId(st, target) in st'.records && st'.records[SavedId(st, target)] == i
    ensures st'.records - {SavedId(st, target)} == st.records - {SavedId(st, target)}
  {
    Store(st.records[SavedId(st, target) := i], if target.Create? then st.nextId + 1 else st.nextId)
  }

  /** Saving draft `d` into `target`. A save that fails validation writes
      nothing and returns the errors. A save that passes stores `d`'s bounds,
      resolves the overlaps and, for gapless records, closes the gaps; after
      it no other record overlaps the saved one. */
  function Save(st: Store, target: Target, d: Draft, order: seq<Id>, gapless: bool): (res: Result<Store, set<Error>>)
    requires Wf(st) && Targets(st, target) && Lists(order, st)
    ensures res.Failure? <==> SaveErrors(st, target, d, gapless) != {}
    ensures res.Failure? ==> res.error == SaveErrors(st, target, d, gapless)
    ensures res.Success? ==>
              && d.Complete() && d.Bounds().Valid()
              && Wf(res.value)
              && SavedId(st, target) in res.value.records
              && res.value.records[SavedId(st, target)] == d.Bounds()
    ensures res.Success? ==>
              forall k :: k in res.value.records && k != SavedId(st, target) ==>
                !Overlaps(res.value.records[k], d.Bounds())
  {
    var errs := SaveErrors(st, target, d, gapless);
    if errs != {} then Failure(errs)
    else
      var rid := SavedId(st, target);
      var st1 := Write(st, target, d.Bounds());
      assert Ready(st1, rid, order);
      var st2 := AfterSave(st1, rid, order);
      AfterSaveClearsOverlaps(st1, rid, order);
      Success(if gapless then AdjustGaps(st2, rid, Was(st, target)) else st2)
  }

  // ---------------------------------------------------------------------
  // Invariants a save keeps
  // ---------------------------------------------------------------------

  lemma CoveredSplit(recs: map<Id, Interval>, rid: Id)
    requires rid in recs
    ensures forall t :: Covered(recs, t) <==> Covered(recs - {rid}, t) || recs[rid].Contains(t)
  {
    forall t | Covered(recs, t) && !recs[rid].Contains(t)
      ensures Covered(recs - {rid}, t)
    {
      var k :| k in recs && recs[k].Contains(t);
      assert (recs - {rid})[k].Contains(t);
    }
    forall t | Covered(recs - {rid}, t)
      ensures Covered(recs, t)
    {
      var k :| k in recs - {rid} && (recs - {rid})[k].Contains(t);
      assert recs[k].Contains(t);
    }
  }

  /** A plain save, over siblings that never cover a point twice, leaves no
      point covered twice. The records then cover exactly what the siblings
      covered plus the saved span: a span the record gave up is freed. */
  lemma SaveKeepsNoOverlap(st: Store, target: Target, d: Draft, order: seq<Id>)
    requires Wf(st) && Targets(st, target) && Lists(order, st)
    requires AllValid(st.records) && AtMostOneCovers(st.records)
    requires Save(st, target, d, order, false).Success?
    ensures AllValid(Save(st, target, d, order, false).value.records)
    ensures AtMostOneCovers(Save(st, target, d, order, false).value.records)
    ensures forall t :: Covered(Save(st, target, d, order, false).value.records, t) <==>
              Covered(st.records - {SavedId(st, target)}, t) || d.Bounds().Contains(t)
  {
    var rid := SavedId(st, target);
    var st1 := Write(st, target, d.Bounds());
    assert Ready(st1, rid, order);
    AfterSaveKeepsNoOverlap(st1, rid, order);
    AfterSaveKeepsCoverage(st1, rid, order);
    CoveredSplit(st1.records, rid);
  }

  /** The new span meets or touches the old one, so the freed spans on
      either side are contiguous with it. */
  predicate Touches(o: Interval, n: Interval) {
    n.start <= Succ(o.end) && Pred(o.start) <= n.end
  }

  /** Points covered once overlap resolution has run for an update from `o`
      to `n` in a tiling: everything in `[MIN, MAX]` except what `o` gave
      up, plus `n`. */
  ghost predicate Base(o: Interval, n: Interval, t: Time) {
    (MIN <= t <= MAX && !o.Contains(t)) || n.Contains(t)
  }

  /** The span freed before the new start (empty unless the start moved later). */
  function Left(o: Interval, n: Interval): Interval { Interval(o.start, Pred(n.start)) }

  /** The span freed after the new end (empty unless the end moved earlier). */
  function Right(o: Interval, n: Interval): Interval { Interval(Succ(n.end), o.end) }

  lemma PreviousGapCloses(st: Store, rid: Id, o: Interval, n: Interval, p: Id)
    requires Wf(st) && rid in st.records && st.records[rid] == n && n.Valid() && o.Valid()
    requires AllValid(st.records) && AtMostOneCovers(st.records) && Touches(o, n)
    requires forall t :: Covered(st.records, t) <==> Base(o, n, t)
    requires StartMovedLater(n, Some(o)) ==> IsMatch(st.records, rid, EndAt, Pred(o.start), p)
    ensures AllValid(AdjustPreviousGap(st, rid, Some(o)).records)
    ensures AtMostOneCovers(AdjustPreviousGap(st, rid, Some(o)).records)
    ensures forall t :: Covered(AdjustPreviousGap(st, rid, Some(o)).records, t) <==>
              Base(o, n, t) || Left(o, n).Contains(t)
  {
    var st' := AdjustPreviousGap(st, rid, Some(o));
    if StartMovedLater(n, Some(o)) {
      FindSiblingCovering(st, rid, EndAt, Pred(o.start), p);
      var w := Interval(st.records[p].start, Pred(n.start));
      forall k: Id | IsFirstMatch(st.records, rid, EndAt, Pred(o.start), k)
        ensures k == p
      {
        assert !(k < p) && !(p < k);
      }
      assert st'.records == st.records[p := w];
      forall t | w.Contains(t) && !st.records[p].Contains(t)
        ensures !Covered(st.records, t)
      {
        assert o.Contains(t) && !n.Contains(t);
      }
      Widen(st.records, p, w);
      forall t | Left(o, n).Contains(t) ensures w.Contains(t) {}
      forall t | w.Contains(t) && !Left(o, n).Contains(t)
        ensures Covered(st.records, t)
      {
        assert st.records[p].Contains(t);
      }
    }
  }

  lemma NextGapCloses(st: Store, rid: Id, o: Interval, n: Interval, q: Id)
    requires Wf(st) && rid in st.records && st.records[rid] == n && n.Valid() && o.Valid()
    requires AllValid(st.records) && AtMostOneCovers(st.records) && Touches(o, n)
    requires forall t :: Covered(st.records, t) <==> Base(o, n, t) || Left(o, n).Contains(t)
    requires EndMovedEarlier(n, Some(o)) ==> IsMatch(st.records, rid, StartAt, Succ(o.end), q)
    ensures AllValid(AdjustNextGap(st, rid, Some(o)).records)
    ensures AtMostOneCovers(AdjustNextGap(st, rid, Some(o)).records)
    ensures forall t :: Covered(AdjustNextGap(st, rid, Some(o)).records, t) <==>
              Base(o, n, t) || Left(o, n).Contains(t) || Right(o, n).Contains(t)
  {
    var st' := AdjustNextGap(st, rid, Some(o));
    if EndMovedEarlier(n, Some(o)) {
      FindSiblingCovering(st, rid, StartAt, Succ(o.end), q);
      var w := Interval(Succ(n.end), st.records[q].end);
      forall k: Id | IsFirstMatch(st.records, rid, StartAt, Succ(o.end), k)
        ensures k == q
      {
        assert !(k < q) && !(q < k);
      }
      assert st'.records == st.records[q := w];
      forall t | w.Contains(t) && !st.records[q].Contains(t)
        ensures !Covered(st.records, t)
      {
        assert o.Contains(t) && !n.Contains(t) && !Left(o, n).Contains(t);
      }
      Widen(st.records, q, w);
      forall t | Right(o, n).Contains(t) ensures w.Contains(t) {}
      forall t | w.Contains(t) && !Right(o, n).Contains(t)
        ensures Covered(st.records, t)
      {
        assert st.records[q].Contains(t);
      }
    }
  }

  /** Inside `[MIN, MAX]`, what an update from `o` to `n` gives up on the
      left and on the right is exactly what `n` does not cover of `o`. */
  lemma FreedSpansFill(o: Interval, n: Interval, t: Time)
    requires o.Valid() && n.Valid() && MIN <= o.start && o.end <= MAX && MIN <= n.start && n.end <= MAX
    ensures Base(o, n, t) || Left(o, n).Contains(t) || Right(o, n).Contains(t) <==> MIN <= t <= MAX
  {
  }

  /** Closing the gaps after overlap resolution for an update of `rid` from
      its tiled span to `n` restores a tiling, when `n` lies inside
      `[MIN, MAX]` and meets or touches the old span. */
  lemma GapsCloseAfterUpdate(st: Store, rid: Id, n: Interval, st2: Store)
    requires Wf(st) && rid in st.records && Tiles(st.records)
    requires n.Valid() && MIN <= n.start && n.end <= MAX && Touches(st.records[rid], n)
    requires st.records[rid].start == MIN ==> n.start == MIN
    requires st.records[rid].end == MAX ==> n.end == MAX
    requires Wf(st2) && rid in st2.records && st2.records[rid] == n
    requires AllValid(st2.records) && AtMostOneCovers(st2.records)
    requires forall t :: Covered(st2.records, t) <==> Base(st.records[rid], n, t)
    requires forall k :: k in st.records && k != rid && !Overlaps(st.records[k], n) ==>
               k in st2.records && st2.records[k] == st.records[k]
    ensures Tiles(AdjustGaps(st2, rid, Some(st.records[rid])).records)
  {
    var o := st.records[rid];
    var was := Some(o);
    assert o.Valid() && st.records[rid].Contains(o.start) && st.records[rid].Contains(o.end);
    assert Covered(st.records, o.start) && Covered(st.records, o.end);
    var p: Id := 0;
    if StartMovedLater(n, was) {
      p := PredecessorInTiling(st.records, rid);
      assert !Overlaps(st.records[p], n);
    }
    PreviousGapCloses(st2, rid, o, n, p);
    var st3 := AdjustPreviousGap(st2, rid, was);
    var q: Id := 0;
    if EndMovedEarlier(n, was) {
      q := SuccessorInTiling(st.records, rid);
      assert !Overlaps(st.records[q], n);
      assert st3.records[q].start == st2.records[q].start;
    }
    NextGapCloses(st3, rid, o, n, q);
    var st4 := AdjustNextGap(st3, rid, was);
    forall t ensures Covered(st4.records, t) <==> MIN <= t <= MAX {
      FreedSpansFill(o, n, t);
    }
  }

  /** One round of overlap resolution after writing `n` for `rid` into a
      store without overlaps: still no overlaps, the siblings that `n` does
      not meet stay as they were, and the covered points are those of the
      other records plus `n`. */
  lemma RoundFacts(st: Store, rid: Id, n: Interval, order: seq<Id>, st2: Store)
    requires Wf(st) && rid < st.nextId && AllValid(st.records) && AtMostOneCovers(st.records)
    requires n.Valid() && NoDuplicates(order) && forall k :: k in st.records ==> k in order
    requires st2 == AfterSave(st.(records := st.records[rid := n]), rid, order)
    ensures AllValid(st2.records) && AtMostOneCovers(st2.records) && st2.records[rid] == n
    ensures forall t :: Covered(st2.records, t) <==> Covered(st.records - {rid}, t) || n.Contains(t)
    ensures forall k :: k in st.records && k != rid && !Overlaps(st.records[k], n) ==>
              k in st2.records && st2.records[k] == st.records[k]
  {
    var st1 := st.(records := st.records[rid := n]);
    assert Ready(st1, rid, order);
    assert AllValid(st1.records);
    assert st1.records - {rid} == st.records - {rid};
    AfterSaveKeepsNoOverlap(st1, rid, order);
    AfterSaveKeepsCoverage(st1, rid, order);
    AfterSaveLeavesOthers(st1, rid, order);
    CoveredSplit(st1.records, rid);
  }

  /** A gapless save keeps a tiling of `[MIN, MAX]` a tiling, when the new
      span lies inside `[MIN, MAX]` and, for an update, meets or touches the
      old span. Overlap resolution makes room for the new span, and the
      neighbours are stretched over whatever the record gave up. */
  lemma SaveKeepsTiling(st: Store, target: Target, d: Draft, order: seq<Id>)
    requires Wf(st) && Targets(st, target) && Lists(order, st) && Tiles(st.records)
    requires Save(st, target, d, order, true).Success?
    requires MIN <= d.Bounds().start && d.Bounds().end <= MAX
    requires target.Update? ==> Touches(st.records[target.id], d.Bounds())
    ensures Tiles(Save(st, target, d, order, true).value.records)
  {
    var rid := SavedId(st, target);
    var n := d.Bounds();
    var st1 := Write(st, target, n);
    var st2 := AfterSave(st1, rid, order);
    if target.Create? {
      var st0 := st.(nextId := st.nextId + 1);
      assert st1 == st0.(records := st0.records[rid := n]);
      RoundFacts(st0, rid, n, order, st2);
      assert st.records - {rid} == st.records;
      assert Save(st, target, d, order, true).value == st2;
    } else {
      var o := st.records[rid];
      assert st1 == st.(records := st.records[rid := n]);
      RoundFacts(st, rid, n, order, st2);
      CoveredSplit(st.records, rid);
      assert forall t :: Covered(st2.records, t) <==> Base(o, n, t) by {
        assert o.Contains(o.start) && o.Contains(o.end);
      }
      assert Save(st, target, d, order, true).value == AdjustGaps(st2, rid, Some(o));
      GapsCloseAfterUpdate(st, rid, n, st2);
    }
  }
}

=== FILE: overlap.dfy ===
/** Overlap resolution (`adjust_overlaping_records`): after a record R is
    saved, every sibling that overlaps R is destroyed, split in two or
    truncated at one edge, so that no sibling overlaps R any more. */
module Overlap {
  import opened Timeline
  import opened Records

  /** The four branches of the resolution, in the order the source tests
      them, and the fall-through that does nothing. */
  datatype Branch = Destroy | Split | TruncateEnd | TruncateStart | Skip

  /** Picks the branch for sibling `s` against the saved span `r`. On an
      overlapping sibling exactly one of four geometric cases holds and the
      fall-through never fires. */
  function Classify(s: Interval, r: Interval): (b: Branch)
    ensures Overlaps(s, r) ==> b != Skip
    ensures Overlaps(s, r) ==> (b == Destroy <==> r.start <= s.start && s.end <= r.end)
    ensures Overlaps(s, r) ==> (b == Split <==> s.start < r.start && r.end < s.end)
    ensures Overlaps(s, r) ==> (b == TruncateEnd <==> s.start < r.start <= s.end <= r.end)
    ensures Overlaps(s, r) ==> (b == TruncateStart <==> r.start <= s.start <= r.end < s.end)
  {
    if s.start >= r.start && s.end <= r.end then Destroy
    else if s.start < r.start && s.end > r.end then Split
    else if s.start < r.start then TruncateEnd
    else if s.end > r.end then TruncateStart
    else Skip
  }

  /** What is left of `s` before `r`: `[s.start, r.start - step]`. */
  function Head(s: Interval, r: Interval): Interval {
    Interval(s.start, Pred(r.start))
  }

  /** What is left of `s` after `r`: `[r.end + step, s.end]`. */
  function Tail(s: Interval, r: Interval): Interval {
    Interval(Succ(r.end), s.end)
  }

  /** The intervals that take the place of sibling `s` once `r` is saved. */
  function Pieces(s: Interval, r: Interval): (p: seq<Interval>)
    ensures |p| <= 2
    ensures Overlaps(s, r) ==> forall i :: 0 <= i < |p| ==> p[i].Valid() && !Overlaps(p[i], r)
  {
    match Classify(s, r)
    case Destroy => []
    case Split => [Head(s, r), Tail(s, r)]
    case TruncateEnd => [Head(s, r)]
    case TruncateStart => [Tail(s, r)]
    case Skip => [s]
  }

  predicate InSome(p: seq<Interval>, t: Time) {
    exists i :: 0 <= i < |p| && p[i].Contains(t)
  }

  /** The pieces of an overlapping sibling cover exactly the part of it that
      lies outside `r`, and two pieces never share a point. */
  lemma PiecesCoverDifference(s: Interval, r: Interval)
    requires Overlaps(s, r) && r.Valid()
    ensures forall t :: InSome(Pieces(s, r), t) <==> s.Contains(t) && !r.Contains(t)
    ensures forall i, t :: 0 <= i < |Pieces(s, r)| && Pieces(s, r)[i].Contains(t) ==> s.Contains(t)
    ensures |Pieces(s, r)| == 2 ==> forall t :: !(Pieces(s, r)[0].Contains(t) && Pieces(s, r)[1].Contains(t))
  {
    var p := Pieces(s, r);
    forall t | s.Contains(t) && !r.Contains(t)
      ensures InSome(p, t)
    {
      if t < r.start {
        assert p[0] == Head(s, r) && p[0].Contains(t);
      } else {
        assert p[|p| - 1] == Tail(s, r) && p[|p| - 1].Contains(t);
      }
    }
  }

  /** Applies the branch for one cached sibling `id`, whose bounds when the
      cache was filled were `s`: the first piece is written back under `id`,
      a second piece is inserted under the next fresh key, and a sibling with
      no pieces is destroyed. Nothing else in the store changes. */
  function ResolveOne(st: Store, r: Interval, id: Id, s: Interval): (res: Store)
    requires Wf(st) && id < st.nextId
    ensures Wf(res) && st.nextId <= res.nextId
    ensures forall k :: k in st.records && k != id ==> k in res.records && res.records[k] == st.records[k]
    ensures |Pieces(s, r)| == 0 ==> res.records == st.records - {id} && res.nextId == st.nextId
    ensures |Pieces(s, r)| == 1 ==> res.records == st.records[id := Pieces(s, r)[0]] && res.nextId == st.nextId
    ensures |Pieces(s, r)| == 2 ==>
              && res.records == st.records[id := Pieces(s, r)[0]][st.nextId := Pieces(s, r)[1]]
              && res.nextId == st.nextId + 1
  {
    match Classify(s, r)
    case Destroy => st.(records := st.records - {id})
    case Split => Store(st.records[id := Head(s, r)][st.nextId := Tail(s, r)], st.nextId + 1)
    case TruncateEnd => st.(records := st.records[id := Head(s, r)])
    case TruncateStart => st.(records := st.records[id := Tail(s, r)])
    case Skip => st
  }

  /** Keys of the cached overlap set. */
  function Ids(memo: seq<(Id, Interval)>): set<Id> {
    set i | 0 <= i < |memo| :: memo[i].0
  }

  predicate Distinct(memo: seq<(Id, Interval)>) {
    forall i, j :: 0 <= i < j < |memo| ==> memo[i].0 != memo[j].0
  }

  predicate NoDuplicates(order: seq<Id>) {
    forall i, j :: 0 <= i < j < |order| ==> order[i] != order[j]
  }

  /** `memo` lists, each once when `order` repeats no key, exactly the
      records of `order` other than `rid` that overlap it, with their bounds. */
  ghost predicate Collects(recs: map<Id, Interval>, rid: Id, order: seq<Id>, memo: seq<(Id, Interval)>)
    requires rid in recs
  {
    && (forall i :: 0 <= i < |memo| ==>
          && memo[i].0 in recs && memo[i].0 != rid && memo[i].1 == recs[memo[i].0]
          && Overlaps(memo[i].1, recs[rid]))
    && (forall i :: 0 <= i < |memo| ==> memo[i].0 in order)
    && (forall k :: k in order && k in recs && k != rid && Overlaps(recs[k], recs[rid]) ==> k in Ids(memo))
    && (NoDuplicates(order) ==> Distinct(memo))
  }

  /** Putting an overlapping head key in front of what the rest collects
      collects the whole order. */
  lemma CollectsCons(recs: map<Id, Interval>, rid: Id, order: seq<Id>, rest: seq<(Id, Interval)>)
    requires rid in recs && order != [] && Collects(recs, rid, order[1..], rest)
    requires order[0] in recs && order[0] != rid && Overlaps(recs[order[0]], recs[rid])
    ensures Collects(recs, rid, order, [(order[0], recs[order[0]])] + rest)
  {
    var k := order[0];
    var memo := [(k, recs[k])] + rest;
    assert forall i :: 0 < i < |memo| ==> memo[i] == rest[i - 1];
    assert forall i :: 0 <= i < |memo| ==> memo[i].0 in order by {
      forall i | 0 < i < |memo| ensures memo[i].0 in order {
        assert rest[i - 1].0 in order[1..];
      }
    }
    assert forall j :: j in order && j in recs && j != rid && Overlaps(recs[j], recs[rid]) ==> j in Ids(memo) by {
      forall j | j in order && j in recs && j != rid && Overlaps(recs[j], recs[rid]) ensures j in Ids(memo) {
        if j == k {
          assert memo[0].0 == j;
        } else {
          assert j in order[1..];
          var i :| 0 <= i < |rest| && rest[i].0 == j;
          assert memo[i + 1].0 == j;
        }
      }
    }
    if NoDuplicates(order) {
      assert NoDuplicates(order[1..]);
      ConsDistinct(order, rest, (k, recs[k]));
    }
  }

  /** A key put in front of keys that all come later in an order without
      repeats keeps the keys distinct. */
  lemma ConsDistinct(order: seq<Id>, rest: seq<(Id, Interval)>, x: (Id, Interval))
    requires order != [] && x.0 == order[0] && NoDuplicates(order)
    requires Distinct(rest) && forall i :: 0 <= i < |rest| ==> rest[i].0 in order[1..]
    ensures Distinct([x] + rest)
  {
    var memo := [x] + rest;
    assert x.0 !in order[1..];
    forall i, j | 0 <= i < j < |memo| ensures memo[i].0 != memo[j].0 {
      assert memo[j] == rest[j - 1];
      if i > 0 {
        assert memo[i] == rest[i - 1];
      }
    }
  }

  /** Skipping a head key that is `rid` or does not overlap it keeps what
      the rest collects. */
  lemma CollectsSkip(recs: map<Id, Interval>, rid: Id, order: seq<Id>, rest: seq<(Id, Interval)>)
    requires rid in recs && order != [] && Collects(recs, rid, order[1..], rest)
    requires !(order[0] in recs && order[0] != rid && Overlaps(recs[order[0]], recs[rid]))
    ensures Collects(recs, rid, order, rest)
  {
    assert forall i :: 0 <= i < |rest| ==> rest[i].0 in order;
  }

  /** `overlaping_records`: the siblings of `rid` that overlap its span, with
      their bounds as read, in the storage's row order `order`. It is
      computed once, before any sibling is rewritten. */
  function Overlapping(recs: map<Id, Interval>, rid: Id, order: seq<Id>): (memo: seq<(Id, Interval)>)
    requires rid in recs
    ensures forall i :: 0 <= i < |memo| ==>
              && memo[i].0 in recs && memo[i].0 != rid && memo[i].1 == recs[memo[i].0]
              && Overlaps(memo[i].1, recs[rid])
    ensures forall i :: 0 <= i < |memo| ==> memo[i].0 in order
    ensures forall k :: k in order && k in recs && k != rid && Overlaps(recs[k], recs[rid]) ==> k in Ids(memo)
    ensures NoDuplicates(order) ==> Distinct(memo)
  {
    if order == [] then []
    else
      var k := order[0];
      var rest := Overlapping(recs, rid, order[1..]);
      if k in recs && k != rid && Overlaps(recs[k], recs[rid]) then
        CollectsCons(recs, rid, order, rest);
        [(k, recs[k])] + rest
      else
        CollectsSkip(recs, rid, order, rest);
        rest
  }

  /** Visits the cached siblings one by one (`overlaping_records.each`). */
  function ResolveEach(st: Store, r: Interval, memo: seq<(Id, Interval)>): (res: Store)
    requires Wf(st) && forall i :: 0 <= i < |memo| ==> memo[i].0 < st.nextId
    ensures Wf(res) && st.nextId <= res.nextId
    decreases |memo|
  {
    if memo == [] then st
    else ResolveEach(ResolveOne(st, r, memo[0].0, memo[0].1), r, memo[1..])
  }

  /** `adjust_overlaping_records` for the record `rid`, already stored with
      its new bounds. The saved record itself is left as it is. */
  function AfterSave(st: Store, rid: Id, order: seq<Id>): (res: Store)
    requires Wf(st) && rid in st.records
    ensures Wf(res) && rid in res.records && res.records[rid] == st.records[rid]
  {
    var memo := Overlapping(st.records, rid, order);
    ResolveEachFrame(st, st.records[rid], memo);
    ResolveEach(st, st.records[rid], memo)
  }

  // ---------------------------------------------------------------------
  // Facts about the fold
  // ---------------------------------------------------------------------

  /** Cached entry `e` still describes a stored sibling of `rid` that
      overlaps `r`. */
  ghost predicate Pending(st: Store, rid: Id, r: Interval, e: (Id, Interval)) {
    e.0 in st.records && e.0 != rid && st.records[e.0] == e.1 && Overlaps(e.1, r)
  }

  ghost predicate Inv(st: Store, rid: Id, r: Interval, memo: seq<(Id, Interval)>) {
    && Wf(st) && rid in st.records && st.records[rid] == r && r.Valid()
    && (forall i :: 0 <= i < |memo| ==> Pending(st, rid, r, memo[i]))
    && Distinct(memo)
  }

  lemma InvStep(st: Store, rid: Id, r: Interval, memo: seq<(Id, Interval)>)
    requires Inv(st, rid, r, memo) && memo != []
    ensures Inv(ResolveOne(st, r, memo[0].0, memo[0].1), rid, r, memo[1..])
  {
    var st' := ResolveOne(st, r, memo[0].0, memo[0].1);
    forall i | 0 <= i < |memo[1..]|
      ensures Pending(st', rid, r, memo[1..][i])
    {
      assert memo[1..][i] == memo[i + 1];
      assert Pending(st, rid, r, memo[i + 1]);
    }
  }

  /** Keys below the starting `nextId` that are not cached are left alone
      by the whole fold. */
  lemma {:induction false} ResolveEachFrame(st: Store, r: Interval, memo: seq<(Id, Interval)>)
    requires Wf(st) && forall i :: 0 <= i < |memo| ==> memo[i].0 < st.nextId
    ensures forall k :: k < st.nextId && k !in Ids(memo) ==>
              && (k in ResolveEach(st, r, memo).records <==> k in st.records)
              && (k in st.records ==> ResolveEach(st, r, memo).records[k] == st.records[k])
    decreases |memo|
  {
    if memo != [] {
      var st' := ResolveOne(st, r, memo[0].0, memo[0].1);
      assert forall i :: 0 <= i < |memo[1..]| ==> memo[1..][i] == memo[i + 1];
      ResolveEachFrame(st', r, memo[1..]);
      assert memo[0].0 in Ids(memo);
    }
  }

  /** One visited sibling: points inside `r` stay covered by the saved
      record, points outside `r` are covered afterwards exactly when they
      were before. */
  lemma StepCoverage(st: Store, rid: Id, r: Interval, id: Id, s: Interval)
    requires Wf(st) && rid in st.records && st.records[rid] == r && r.Valid()
    requires id in st.records && id != rid && st.records[id] == s && Overlaps(s, r)
    ensures forall t :: Covered(ResolveOne(st, r, id, s).records, t) <==> Covered(st.records, t)
  {
    var res := ResolveOne(st, r, id, s);
    var p := Pieces(s, r);
    PiecesCoverDifference(s, r);
    forall t
      ensures Covered(res.records, t) <==> Covered(st.records, t)
    {
      if r.Contains(t) {
        assert res.records[rid].Contains(t);
      } else {
        if Covered(st.records, t) {
          var k :| k in st.records && st.records[k].Contains(t);
          if k == id {
            assert InSome(p, t);
            var i :| 0 <= i < |p| && p[i].Contains(t);
            if i == 0 {
              assert res.records[id].Contains(t);
            } else {
              assert res.records[st.nextId].Contains(t);
            }
          } else {
            assert res.records[k].Contains(t);
          }
        }
        if Covered(res.records, t) {
          var k :| k in res.records && res.records[k].Contains(t);
          if k !in st.records || k == id {
            assert s.Contains(t);
          }
        }
      }
    }
  }

  lemma {:induction false} ResolveEachCoverage(st: Store, rid: Id, r: Interval, memo: seq<(Id, Interval)>)
    requires Inv(st, rid, r, memo)
    ensures forall t :: Covered(ResolveEach(st, r, memo).records, t) <==> Covered(st.records, t)
    decreases |memo|
  {
    if memo != [] {
      assert Pending(st, rid, r, memo[0]);
      StepCoverage(st, rid, r, memo[0].0, memo[0].1);
      InvStep(st, rid, r, memo);
      ResolveEachCoverage(ResolveOne(st, r, memo[0].0, memo[0].1), rid, r, memo[1..]);
    }
  }

  /** After the fold no record but the saved one overlaps `r`, provided the
      cache held every overlapping sibling. */
  lemma {:induction false} ResolveEachClears(st: Store, rid: Id, r: Interval, memo: seq<(Id, Interval)>)
    requires Inv(st, rid, r, memo)
    requires forall k :: k in st.records && k != rid && Overlaps(st.records[k], r) ==> k in Ids(memo)
    ensures forall k :: k in ResolveEach(st, r, memo).records && k != rid ==>
              !Overlaps(ResolveEach(st, r, memo).records[k], r)
    decreases |memo|
  {
    if memo != [] {
      var id := memo[0].0;
      var st' := ResolveOne(st, r, id, memo[0].1);
      assert Pending(st, rid, r, memo[0]);
      InvStep(st, rid, r, memo);
      forall k | k in st'.records && k != rid && Overlaps(st'.records[k], r)
        ensures k in Ids(memo[1..])
      {
        if k in st.records && k != id {
          assert k in Ids(memo);
          var i :| 0 <= i < |memo| && memo[i].0 == k;
          assert memo[1..][i - 1].0 == k;
        }
      }
      ResolveEachClears(st', rid, r, memo[1..]);
    }
  }

  lemma {:induction false} ResolveEachValid(st: Store, rid: Id, r: Interval, memo: seq<(Id, Interval)>)
    requires Inv(st, rid, r, memo) && AllValid(st.records)
    ensures AllValid(ResolveEach(st, r, memo).records)
    decreases |memo|
  {
    if memo != [] {
      assert Pending(st, rid, r, memo[0]);
      InvStep(st, rid, r, memo);
      ResolveEachValid(ResolveOne(st, r, memo[0].0, memo[0].1), rid, r, memo[1..]);
    }
  }

  /** One visited sibling keeps "no point covered twice" among the siblings:
      its pieces lie inside it and apart from each other. */
  lemma StepSeparates(st: Store, rid: Id, r: Interval, id: Id, s: Interval)
    requires Wf(st) && rid in st.records && st.records[rid] == r && r.Valid()
    requires id in st.records && id != rid && st.records[id] == s && Overlaps(s, r)
    requires AtMostOneCovers(st.records - {rid})
    ensures AtMostOneCovers(ResolveOne(st, r, id, s).records - {rid})
  {
    var res := ResolveOne(st, r, id, s);
    var p := Pieces(s, r);
    PiecesCoverDifference(s, r);
    var before := st.records - {rid};
    var after := res.records - {rid};
    forall j, k, t | j in after && k in after && after[j].Contains(t) && after[k].Contains(t)
      ensures j == k
    {
      var oj := if j in st.records && j != id then j else id;
      var ok := if k in st.records && k != id then k else id;
      assert before[oj].Contains(t);
      assert before[ok].Contains(t);
    }
  }

  lemma {:induction false} ResolveEachSeparates(st: Store, rid: Id, r: Interval, memo: seq<(Id, Interval)>)
    requires Inv(st, rid, r, memo) && AtMostOneCovers(st.records - {rid})
    ensures AtMostOneCovers(ResolveEach(st, r, memo).records - {rid})
    decreases |memo|
  {
    if memo != [] {
      assert Pending(st, rid, r, memo[0]);
      StepSeparates(st, rid, r, memo[0].0, memo[0].1);
      InvStep(st, rid, r, memo);
      ResolveEachSeparates(ResolveOne(st, r, memo[0].0, memo[0].1), rid, r, memo[1..]);
    }
  }

  /** The fate of the first cached sibling, which later steps do not touch. */
  lemma OutcomeOfFirst(st: Store, rid: Id, r: Interval, memo: seq<(Id, Interval)>)
    requires Inv(st, rid, r, memo) && memo != []
    ensures |Pieces(memo[0].1, r)| == 0 ==> memo[0].0 !in ResolveEach(st, r, memo).records
    ensures |Pieces(memo[0].1, r)| >= 1 ==>
              && memo[0].0 in ResolveEach(st, r, memo).records
              && ResolveEach(st, r, memo).records[memo[0].0] == Pieces(memo[0].1, r)[0]
    ensures |Pieces(memo[0].1, r)| == 2 ==>
              && st.nextId in ResolveEach(st, r, memo).records
              && ResolveEach(st, r, memo).records[st.nextId] == Pieces(memo[0].1, r)[1]
  {
    var id := memo[0].0;
    var st' := ResolveOne(st, r, id, memo[0].1);
    assert Pending(st, rid, r, memo[0]);
    InvStep(st, rid, r, memo);
    ResolveEachFrame(st', r, memo[1..]);
    assert id !in Ids(memo[1..]);
    if |Pieces(memo[0].1, r)| == 2 {
      assert st.nextId !in Ids(memo[1..]);
    }
  }

  /** The fate of the cached sibling at position `i`: no pieces means it is
      gone, otherwise its first piece sits under its own key and a second
      piece under a key that did not exist before. */
  lemma {:induction false} ResolveEachOutcome(st: Store, rid: Id, r: Interval, memo: seq<(Id, Interval)>, i: nat)
    requires Inv(st, rid, r, memo) && i < |memo|
    ensures |Pieces(memo[i].1, r)| == 0 ==> memo[i].0 !in ResolveEach(st, r, memo).records
    ensures |Pieces(memo[i].1, r)| >= 1 ==>
              && memo[i].0 in ResolveEach(st, r, memo).records
              && ResolveEach(st, r, memo).records[memo[i].0] == Pieces(memo[i].1, r)[0]
    ensures |Pieces(memo[i].1, r)| == 2 ==>
              exists n :: st.nextId <= n && n in ResolveEach(st, r, memo).records
                          && ResolveEach(st, r, memo).records[n] == Pieces(memo[i].1, r)[1]
    decreases |memo|
  {
    if i == 0 {
      OutcomeOfFirst(st, rid, r, memo);
    } else {
      var st' := ResolveOne(st, r, memo[0].0, memo[0].1);
      assert Pending(st, rid, r, memo[0]);
      InvStep(st, rid, r, memo);
      assert memo[1..][i - 1] == memo[i];
      ResolveEachOutcome(st', rid, r, memo[1..], i - 1);
    }
  }

  /** Number of cached siblings that take branch `b`. */
  function CountOf(memo: seq<(Id, Interval)>, r: Interval, b: Branch): nat
    decreases |memo|
  {
    if memo == [] then 0
    else (if Classify(memo[0].1, r) == b then 1 else 0) + CountOf(memo[1..], r, b)
  }

  /** Each destroy removes one record and each split adds one. */
  lemma {:induction false} ResolveEachCount(st: Store, rid: Id, r: Interval, memo: seq<(Id, Interval)>)
    requires Inv(st, rid, r, memo)
    ensures |ResolveEach(st, r, memo).records| + CountOf(memo, r, Destroy)
            == |st.records| + CountOf(memo, r, Split)
    decreases |memo|
  {
    if memo != [] {
      var id := memo[0].0;
      var st' := ResolveOne(st, r, id, memo[0].1);
      assert Pending(st, rid, r, memo[0]);
      InvStep(st, rid, r, memo);
      ResolveEachCount(st', rid, r, memo[1..]);
      match Classify(memo[0].1, r)
      case Destroy =>
        assert st'.records.Keys == st.records.Keys - {id};
      case Split =>
        assert st'.records.Keys == st.records.Keys + {st.nextId};
        assert st.nextId !in st.records.Keys;
      case TruncateEnd =>
        assert st'.records.Keys == st.records.Keys;
      case TruncateStart =>
        assert st'.records.Keys == st.records.Keys;
      case Skip =>
    }
  }

  /** Keys of the cached siblings that take branch `b`. */
  function IdsWith(memo: seq<(Id, Interval)>, r: Interval, b: Branch): set<Id> {
    set i | 0 <= i < |memo| && Classify(memo[i].1, r) == b :: memo[i].0
  }

  lemma IdsWithUnfold(memo: seq<(Id, Interval)>, r: Interval, b: Branch)
    requires memo != [] && Distinct(memo)
    ensures IdsWith(memo, r, b)
            == (if Classify(memo[0].1, r) == b then {memo[0].0} else {}) + IdsWith(memo[1..], r, b)
    ensures memo[0].0 !in IdsWith(memo[1..], r, b)
  {
    var rest := memo[1..];
    forall x | x in IdsWith(memo, r, b)
      ensures x in (if Classify(memo[0].1, r) == b then {memo[0].0} else {}) + IdsWith(rest, r, b)
    {
      var i :| 0 <= i < |memo| && Classify(memo[i].1, r) == b && memo[i].0 == x;
      if i > 0 {
        assert rest[i - 1] == memo[i];
      }
    }
    forall x | x in IdsWith(rest, r, b)
      ensures x in IdsWith(memo, r, b) && x != memo[0].0
    {
      var i :| 0 <= i < |rest| && Classify(rest[i].1, r) == b && rest[i].0 == x;
      assert memo[i + 1] == rest[i];
    }
  }

  lemma {:induction false} CountOfIsCard(memo: seq<(Id, Interval)>, r: Interval, b: Branch)
    requires Distinct(memo)
    ensures CountOf(memo, r, b) == |IdsWith(memo, r, b)|
    decreases |memo|
  {
    if memo != [] {
      IdsWithUnfold(memo, r, b);
      assert Distinct(memo[1..]) by {
        assert forall j :: 0 <= j < |memo[1..]| ==> memo[1..][j] == memo[j + 1];
      }
      CountOfIsCard(memo[1..], r, b);
    }
  }

  // ---------------------------------------------------------------------
  // Properties of one save
  // ---------------------------------------------------------------------

  /** What holds when the after-save hook runs: keys are well formed, the
      saved record is stored and passed validation, and `order` lists each
      of its siblings exactly once. */
  ghost predicate Ready(st: Store, rid: Id, order: seq<Id>) {
    && Wf(st) && rid in st.records && st.records[rid].Valid()
    && NoDuplicates(order)
    && forall k :: k in st.records && k != rid ==> k in order
  }

  /** The siblings that overlap the saved record and take branch `b`. */
  function Taking(st: Store, rid: Id, b: Branch): set<Id>
    requires rid in st.records
  {
    set k | k in st.records && k != rid && Overlaps(st.records[k], st.records[rid])
                            && Classify(st.records[k], st.records[rid]) == b
  }

  lemma ReadyInv(st: Store, rid: Id, order: seq<Id>)
    requires Ready(st, rid, order)
    ensures Inv(st, rid, st.records[rid], Overlapping(st.records, rid, order))
    ensures forall k :: k in st.records && k != rid && Overlaps(st.records[k], st.records[rid]) ==>
              k in Ids(Overlapping(st.records, rid, order))
  {
  }

  /** After a save no sibling overlaps the saved record. */
  lemma AfterSaveClearsOverlaps(st: Store, rid: Id, order: seq<Id>)
    requires Ready(st, rid, order)
    ensures forall k :: k in AfterSave(st, rid, order).records && k != rid ==>
              !Overlaps(AfterSave(st, rid, order).records[k], st.records[rid])
  {
    ReadyInv(st, rid, order);
    ResolveEachClears(st, rid, st.records[rid], Overlapping(st.records, rid, order));
  }

  /** The saved record together with the rewritten siblings covers exactly
      the points it covered together with the original siblings. */
  lemma AfterSaveKeepsCoverage(st: Store, rid: Id, order: seq<Id>)
    requires Ready(st, rid, order)
    ensures forall t :: Covered(AfterSave(st, rid, order).records, t) <==> Covered(st.records, t)
  {
    ReadyInv(st, rid, order);
    ResolveEachCoverage(st, rid, st.records[rid], Overlapping(st.records, rid, order));
  }

  /** If the siblings never covered a point twice, after the save no point
      is covered twice by any records at all, the saved one included; and
      rewritten siblings keep ordered bounds. */
  lemma AfterSaveKeepsNoOverlap(st: Store, rid: Id, order: seq<Id>)
    requires Ready(st, rid, order) && AtMostOneCovers(st.records - {rid})
    ensures AtMostOneCovers(AfterSave(st, rid, order).records)
    ensures AllValid(st.records) ==> AllValid(AfterSave(st, rid, order).records)
  {
    var r := st.records[rid];
    var memo := Overlapping(st.records, rid, order);
    var res := AfterSave(st, rid, order);
    ReadyInv(st, rid, order);
    ResolveEachClears(st, rid, r, memo);
    ResolveEachSeparates(st, rid, r, memo);
    if AllValid(st.records) {
      ResolveEachValid(st, rid, r, memo);
    }
    forall j, k, t | j in res.records && k in res.records && res.records[j].Contains(t) && res.records[k].Contains(t)
      ensures j == k
    {
      if j == rid && k != rid {
        SharedPointOverlaps(res.records[k], r, t);
      } else if k == rid && j != rid {
        SharedPointOverlaps(res.records[j], r, t);
      } else if j != rid && k != rid {
        assert (res.records - {rid})[j].Contains(t);
        assert (res.records - {rid})[k].Contains(t);
      }
    }
  }

  /** Siblings that do not overlap the saved record are not touched, and
      every record that did not exist before the save is a new key. */
  lemma AfterSaveLeavesOthers(st: Store, rid: Id, order: seq<Id>)
    requires Ready(st, rid, order)
    ensures forall k :: k in st.records && k != rid && !Overlaps(st.records[k], st.records[rid]) ==>
              k in AfterSave(st, rid, order).records && AfterSave(st, rid, order).records[k] == st.records[k]
    ensures forall k :: k in AfterSave(st, rid, order).records && k !in st.records ==> st.nextId <= k
  {
    var memo := Overlapping(st.records, rid, order);
    ReadyInv(st, rid, order);
    ResolveEachFrame(st, st.records[rid], memo);
  }

  /** The branch each overlapping sibling takes, spelled out in bounds:
      contained siblings are destroyed; a straddling sibling keeps
      `[s.start, R.start - step]` and a new record `[R.end + step, s.end]`
      appears; a sibling over R's start keeps its start and ends one step
      before R; one over R's end keeps its end and starts one step after R. */
  lemma AfterSaveOutcome(st: Store, rid: Id, order: seq<Id>, k: Id)
    requires Ready(st, rid, order)
    requires k in st.records && k != rid && Overlaps(st.records[k], st.records[rid])
    ensures var s := st.records[k]; var r := st.records[rid]; var res := AfterSave(st, rid, order).records;
      && (Classify(s, r) == Destroy ==> k !in res)
      && (Classify(s, r) == Split ==>
            && k in res && res[k] == Interval(s.start, Pred(r.start))
            && exists n :: n !in st.records && n in res && res[n] == Interval(Succ(r.end), s.end))
      && (Classify(s, r) == TruncateEnd ==> k in res && res[k] == Interval(s.start, Pred(r.start)))
      && (Classify(s, r) == TruncateStart ==> k in res && res[k] == Interval(Succ(r.end), s.end))
  {
    var memo := Overlapping(st.records, rid, order);
    ReadyInv(st, rid, order);
    var i :| 0 <= i < |memo| && memo[i].0 == k;
    ResolveEachOutcome(st, rid, st.records[rid], memo, i);
  }

  /** The cached siblings taking branch `b` are the overlapping siblings
      that take it, counted once each. */
  lemma TakingIsCount(st: Store, rid: Id, order: seq<Id>, b: Branch)
    requires Ready(st, rid, order)
    ensures CountOf(Overlapping(st.records, rid, order), st.records[rid], b) == |Taking(st, rid, b)|
  {
    var r := st.records[rid];
    var memo := Overlapping(st.records, rid, order);
    ReadyInv(st, rid, order);
    forall k | k in Taking(st, rid, b) ensures k in IdsWith(memo, r, b) {
      var i :| 0 <= i < |memo| && memo[i].0 == k;
    }
    assert IdsWith(memo, r, b) == Taking(st, rid, b);
    CountOfIsCard(memo, r, b);
  }

  /** The sibling count drops by one for each destroyed sibling and grows by
      one for each split. */
  lemma AfterSaveCount(st: Store, rid: Id, order: seq<Id>)
    requires Ready(st, rid, order)
    ensures |AfterSave(st, rid, order).records| + |Taking(st, rid, Destroy)|
            == |st.records| + |Taking(st, rid, Split)|
  {
    var r := st.records[rid];
    var memo := Overlapping(st.records, rid, order);
    ReadyInv(st, rid, order);
    ResolveEachCount(st, rid, r, memo);
    TakingIsCount(st, rid, order, Destroy);
    TakingIsCount(st, rid, order, Split);
  }

  /** Saving a record that overlaps no sibling leaves the store as it is. */
  lemma AfterSaveNoOverlapIsNoop(st: Store, rid: Id, order: seq<Id>)
    requires Wf(st) && rid in st.records
    requires forall k :: k in st.records && k != rid ==> !Overlaps(st.records[k], st.records[rid])
    ensures AfterSave(st, rid, order) == st
  {
  }
}

=== FILE: records.dfy ===
/** Records as the interval model sees them: the bounds a caller is editing
    (either may still be unset), their validation and default period, and one
    parent's stored sibling group together with the queries run against it. */
module Records {
  import opened Results
  import opened Timeline

  /** Primary key of a stored record. */
  type Id = nat

  datatype Field = StartAt | EndAt

  /** A validation error attached to a field: `:blank` from the presence
      check, `:invalid` from the date and gapless checks. */
  datatype Error = Blank(field: Field) | Invalid(field: Field)

  /** The bounds of a record being edited; `None` is an unset (nil) bound. */
  datatype Draft = Draft(start: Option<Time>, end: Option<Time>) {

    predicate Complete() { start.Some? && end.Some? }

    function Bounds(): (i: Interval)
      requires Complete()
      ensures Some(i.start) == start && Some(i.end) == end
    {
      Interval(start.value, end.value)
    }
  }

  /** `within_interval?`: both bounds are set and the record's span meets
      `[a, b]`, inclusive at both ends. */
  predicate WithinInterval(d: Draft, a: Time, b: Time) {
    d.start.Some? && d.end.Some? && d.start.value <= b && d.end.value >= a
  }

  /** An unset bound never matches; for a valid record and a non-empty
      window the test holds exactly when the two share a point. */
  lemma WithinIntervalMeansSharedPoint(d: Draft, a: Time, b: Time)
    ensures !d.Complete() ==> !WithinInterval(d, a, b)
    ensures d.Complete() && d.Bounds().Valid() && a <= b ==>
              (WithinInterval(d, a, b) <==> exists t :: d.Bounds().Contains(t) && a <= t <= b)
  {
    if d.Complete() && d.Bounds().Valid() && a <= b {
      OverlapsIffSharedPoint(d.Bounds(), Interval(a, b));
      assert WithinInterval(d, a, b) <==> Overlaps(d.Bounds(), Interval(a, b));
      assert forall t :: Interval(a, b).Contains(t) <==> a <= t <= b;
    }
  }

  /** The presence checks on both bounds and `validate_dates`. */
  function Validate(d: Draft): (errs: set<Error>)
    ensures errs == {} <==> d.Complete() && d.Bounds().Valid()
    ensures Blank(StartAt) in errs <==> d.start.None?
    ensures Blank(EndAt) in errs <==> d.end.None?
    ensures Invalid(EndAt) in errs <==> d.Complete() && d.end.value < d.start.value
    ensures Invalid(StartAt) !in errs
  {
    (if d.start.None? then {Blank(StartAt)} else {})
    + (if d.end.None? then {Blank(EndAt)} else {})
    + (if d.start.Some? && d.end.Some? && d.end.value < d.start.value then {Invalid(EndAt)} else {})
  }

  /** `set_default_period`: an unset start becomes `today`, an unset end
      becomes MAX; bounds already set are kept. */
  function SetDefaultPeriod(d: Draft, today: Time): (r: Draft)
    ensures r.Complete()
    ensures d.start.Some? ==> r.start == d.start
    ensures d.end.Some? ==> r.end == d.end
    ensures d.start.None? ==> r.start == Some(today)
    ensures d.end.None? ==> r.end == Some(MAX)
  {
    Draft(Some(d.start.GetOr(today)), Some(d.end.GetOr(MAX)))
  }

  /** Defaulting twice changes nothing, a defaulted record never fails the
      presence checks, and a record built with no bounds on a day up to MAX
      passes validation outright. */
  lemma DefaultPeriodSettles(d: Draft, today: Time, later: Time)
    ensures SetDefaultPeriod(SetDefaultPeriod(d, today), later) == SetDefaultPeriod(d, today)
    ensures Blank(StartAt) !in Validate(SetDefaultPeriod(d, today))
    ensures Blank(EndAt) !in Validate(SetDefaultPeriod(d, today))
    ensures d == Draft(None, None) && today <= MAX ==> Validate(SetDefaultPeriod(d, today)) == {}
  {
  }

  /** One parent's records, keyed by primary key, and the key the next insert
      receives. */
  datatype Store = Store(records: map<Id, Interval>, nextId: Id)

  /** Keys are handed out in increasing order, so every stored key is below
      `nextId`. */
  predicate Wf(st: Store) {
    forall k :: k in st.records ==> k < st.nextId
  }

  /** Some record of `recs` covers point `t`. */
  ghost predicate Covered(recs: map<Id, Interval>, t: Time) {
    exists k :: k in recs && recs[k].Contains(t)
  }

  ghost predicate AllValid(recs: map<Id, Interval>) {
    forall k :: k in recs ==> recs[k].Valid()
  }

  /** The no-overlap invariant: at most one record covers any given point. */
  ghost predicate AtMostOneCovers(recs: map<Id, Interval>) {
    forall j, k, t :: j in recs && k in recs && recs[j].Contains(t) && recs[k].Contains(t) ==> j == k
  }

  /** The gapless invariant: well-formed records that cover every point of
      `[MIN, MAX]` exactly once and nothing outside it. */
  ghost predicate Tiles(recs: map<Id, Interval>) {
    && AllValid(recs)
    && AtMostOneCovers(recs)
    && forall t :: Covered(recs, t) <==> MIN <= t <= MAX
  }

  function Get(i: Interval, f: Field): Time {
    match f
    case StartAt => i.start
    case EndAt => i.end
  }

  /** Record `k` answers `siblings.where(f => t)` for record `self`. */
  predicate IsMatch(recs: map<Id, Interval>, self: Id, f: Field, t: Time, k: Id) {
    k in recs && k != self && Get(recs[k], f) == t
  }

  /** Record `k` is what `.first` returns for that query: the matching record
      with the least primary key. */
  predicate IsFirstMatch(recs: map<Id, Interval>, self: Id, f: Field, t: Time, k: Id) {
    IsMatch(recs, self, f, t, k) && forall j: Id :: j < k ==> !IsMatch(recs, self, f, t, j)
  }

  function FindFrom(recs: map<Id, Interval>, self: Id, f: Field, t: Time, from: nat, to: nat): (r: Option<Id>)
    decreases to - from
    ensures r.Some? ==> from <= r.value < to && IsMatch(recs, self, f, t, r.value)
    ensures r.Some? ==> forall j :: from <= j < r.value ==> !IsMatch(recs, self, f, t, j)
    ensures r.None? ==> forall j :: from <= j < to ==> !IsMatch(recs, self, f, t, j)
  {
    if from >= to then None
    else if IsMatch(recs, self, f, t, from) then Some(from)
    else FindFrom(recs, self, f, t, from + 1, to)
  }

  /** `siblings.where(f => t).first`: the sibling of `self` whose bound `f`
      equals `t` and whose key is least, if there is one. */
  function FindSibling(st: Store, self: Id, f: Field, t: Time): (r: Option<Id>)
    requires Wf(st)
    ensures r.Some? ==> IsFirstMatch(st.records, self, f, t, r.value)
    ensures r.None? ==> forall k :: !IsMatch(st.records, self, f, t, k)
  {
    FindFrom(st.records, self, f, t, 0, st.nextId)
  }

  /** In a group where no point is covered twice, the sibling whose bound `f`
      is `t` is the one covering `t`, so `.first` has no choice to make. */
  lemma FindSiblingCovering(st: Store, self: Id, f: Field, t: Time, k: Id)
    requires Wf(st) && AllValid(st.records) && AtMostOneCovers(st.records)
    requires IsMatch(st.records, self, f, t, k)
    ensures FindSibling(st, self, f, t) == Some(k)
  {
    var r := FindSibling(st, self, f, t);
    assert st.records[k].Contains(t);
    assert st.records[r.value].Contains(t);
  }
}

=== FILE: results.dfy ===
/** An optional value and a result, used by the model: the option holds the
    bounds a record may still have unset, and the result either carries a
    value or the validation errors that stopped an operation. */
module Results {

  datatype Option<+T> = None | Some(value: T) {

    /** The wrapped value, or `default` when there is none. */
    function GetOr(default: T): (r: T)
      ensures Some? ==> r == value
      ensures None? ==> r == default
    {
      match this
      case Some(v) => v
      case None => default
    }
  }

  datatype Result<+R, +E> = Success(value: R) | Failure(error: E)
}

=== FILE: scenarios.dfy ===
/** Worked examples: the situations exercised by the library's own specs,
    two gapless saves and one gapless destroy whose nested callbacks change
    the outcome, and a gapless update that jumps clear of its old span,
    replayed on the model with dates written as day numbers counted from
    0001-01-01 in the proleptic Gregorian calendar. */
module Scenarios {
  import opened Results
  import opened Timeline
  import opened Records
  import Overlap
  import opened GaplessPolicy
  import opened Lifecycle
  import Cascade

  /** A lone record spanning `[MIN, MAX]`, split by a new record for
      2014-05-01 .. 2014-05-06: three records remain, the old one ending on
      2014-04-30 and a new tail starting on 2014-05-07. */
  lemma SplitOfFullSpan()
    ensures var st := Store(map[1 := Interval(MIN, MAX)], 2);
            var d := Draft(Some(735353), Some(735358));
            Save(st, Create, d, [1], false)
              == Success(Store(map[1 := Interval(MIN, 735352), 2 := Interval(735353, 735358),
                                   3 := Interval(735359, MAX)], 4))
  {
    var st := Store(map[1 := Interval(MIN, MAX)], 2);
    var d := Draft(Some(735353), Some(735358));
    var r := Interval(735353, 735358);
    assert SaveErrors(st, Create, d, false) == {};
    var st1 := Write(st, Create, r);
    assert st1 == Store(map[1 := Interval(MIN, MAX), 2 := r], 3);
    var memo := Overlap.Overlapping(st1.records, 2, [1]);
    assert Overlap.Overlapping(st1.records, 2, []) == [];
    assert memo == [(1, Interval(MIN, MAX))] by { assert [1][1..] == []; }
    assert Overlap.Classify(Interval(MIN, MAX), r) == Overlap.Split;
    var st2 := Overlap.ResolveOne(st1, r, 1, Interval(MIN, MAX));
    assert Overlap.ResolveEach(st1, r, memo) == Overlap.ResolveEach(st2, r, []);
    assert st2.records == map[1 := Interval(MIN, 735352), 2 := r, 3 := Interval(735359, MAX)];
  }

  /** The records the new one for 2014-05-01 .. 2014-05-04 overlaps. */
  lemma ContainedMemo()
    ensures Overlap.Overlapping(map[1 := Interval(MIN, 735353), 2 := Interval(735354, 735356), 3 := Interval(735357, MAX),
                                    4 := Interval(735353, 735356)], 4, [1, 2, 3])
            == [(1, Interval(MIN, 735353)), (2, Interval(735354, 735356))]
  {
    var recs := map[1 := Interval(MIN, 735353), 2 := Interval(735354, 735356), 3 := Interval(735357, MAX),
                    4 := Interval(735353, 735356)];
    assert Overlap.Overlapping(recs, 4, []) == [];
    assert Overlap.Overlapping(recs, 4, [3]) == [];
    assert Overlap.Overlapping(recs, 4, [2, 3]) == [(2, Interval(735354, 735356))] by { assert [2, 3][1..] == [3]; }
    assert [1, 2, 3][1..] == [2, 3];
  }

  /** The visit truncates the first record and destroys the second. */
  lemma ContainedResolve()
    ensures Overlap.ResolveEach(Store(map[1 := Interval(MIN, 735353), 2 := Interval(735354, 735356), 3 := Interval(735357, MAX),
                                          4 := Interval(735353, 735356)], 5), Interval(735353, 735356),
                                [(1, Interval(MIN, 735353)), (2, Interval(735354, 735356))])
            == Store(map[1 := Interval(MIN, 735352), 3 := Interval(735357, MAX), 4 := Interval(735353, 735356)], 5)
  {
    var r := Interval(735353, 735356);
    var st1 := Store(map[1 := Interval(MIN, 735353), 2 := Interval(735354, 735356), 3 := Interval(735357, MAX), 4 := r], 5);
    var memo := [(1, Interval(MIN, 735353)), (2, Interval(735354, 735356))];
    var st2 := Store(map[1 := Interval(MIN, 735352), 2 := Interval(735354, 735356), 3 := Interval(735357, MAX), 4 := r], 5);
    var st3 := Store(map[1 := Interval(MIN, 735352), 3 := Interval(735357, MAX), 4 := r], 5);
    assert Overlap.ResolveOne(st1, r, 1, Interval(MIN, 735353)) == st2 by {
      assert Overlap.Classify(Interval(MIN, 735353), r) == Overlap.TruncateEnd;
    }
    var rest: seq<(Id, Interval)> := memo[1..];
    assert rest == [(2, Interval(735354, 735356))] && rest[1..] == [];
    assert Overlap.ResolveOne(st2, r, 2, Interval(735354, 735356)) == st3 by {
      assert Overlap.Classify(Interval(735354, 735356), r) == Overlap.Destroy;
      assert st2.records - {2} == st3.records;
    }
    assert Overlap.ResolveEach(st2, r, rest) == st3;
  }

  /** Resolution truncates the first record and destroys the second. */
  lemma ContainedRound()
    ensures Overlap.AfterSave(Store(map[1 := Interval(MIN, 735353), 2 := Interval(735354, 735356), 3 := Interval(735357, MAX),
                                        4 := Interval(735353, 735356)], 5), 4, [1, 2, 3])
            == Store(map[1 := Interval(MIN, 735352), 3 := Interval(735357, MAX), 4 := Interval(735353, 735356)], 5)
  {
    ContainedMemo();
    ContainedResolve();
  }

  /** After the split above with 2014-05-02 .. 2014-05-04, a new record for
      2014-05-01 .. 2014-05-04 truncates the first record to end on
      2014-04-30 and destroys the contained one; three records remain. */
  lemma ContainedIsDestroyed()
    ensures var st := Store(map[1 := Interval(MIN, 735353), 2 := Interval(735354, 735356),
                                3 := Interval(735357, MAX)], 4);
            var d := Draft(Some(735353), Some(735356));
            Save(st, Create, d, [1, 2, 3], false)
              == Success(Store(map[1 := Interval(MIN, 735352), 3 := Interval(735357, MAX),
                                   4 := Interval(735353, 735356)], 5))
  {
    var st := Store(map[1 := Interval(MIN, 735353), 2 := Interval(735354, 735356),
                        3 := Interval(735357, MAX)], 4);
    var d := Draft(Some(735353), Some(735356));
    assert SaveErrors(st, Create, d, false) == {};
    assert Write(st, Create, Interval(735353, 735356))
           == Store(map[1 := Interval(MIN, 735353), 2 := Interval(735354, 735356), 3 := Interval(735357, MAX),
                        4 := Interval(735353, 735356)], 5);
    ContainedRound();
  }

  /** The three records the split above leaves: `[MIN, 2014-04-30]`,
      `[2014-05-01, 2014-05-06]`, `[2014-05-07, MAX]`. */
  function SplitGroup(): Store {
    Store(map[1 := Interval(MIN, 735352), 2 := Interval(735353, 735358), 3 := Interval(735359, MAX)], 4)
  }

  /** The records a new one for 2014-05-04 .. 2014-05-08 overlaps: the
      middle one and the last one. */
  lemma EndTruncateMemo()
    ensures Overlap.Overlapping(SplitGroup().records[4 := Interval(735356, 735360)], 4, [1, 2, 3])
            == [(2, Interval(735353, 735358)), (3, Interval(735359, MAX))]
  {
    var recs := SplitGroup().records[4 := Interval(735356, 735360)];
    assert Overlap.Overlapping(recs, 4, []) == [];
    assert Overlap.Overlapping(recs, 4, [3]) == [(3, Interval(735359, MAX))] by { assert [3][1..] == []; }
    assert Overlap.Overlapping(recs, 4, [2, 3]) == [(2, Interval(735353, 735358)), (3, Interval(735359, MAX))]
      by { assert [2, 3][1..] == [3]; }
    assert [1, 2, 3][1..] == [2, 3];
  }

  /** The visit cuts the middle record back to end on 2014-05-03 and starts
      the last one on 2014-05-09. */
  lemma EndTruncateResolve()
    ensures Overlap.ResolveEach(Store(SplitGroup().records[4 := Interval(735356, 735360)], 5), Interval(735356, 735360),
                                [(2, Interval(735353, 735358)), (3, Interval(735359, MAX))])
            == Store(map[1 := Interval(MIN, 735352), 2 := Interval(735353, 735355), 3 := Interval(735361, MAX),
                         4 := Interval(735356, 735360)], 5)
  {
    var r := Interval(735356, 735360);
    var st1 := Store(SplitGroup().records[4 := r], 5);
    var memo := [(2, Interval(735353, 735358)), (3, Interval(735359, MAX))];
    var st2 := Store(map[1 := Interval(MIN, 735352), 2 := Interval(735353, 735355), 3 := Interval(735359, MAX), 4 := r], 5);
    var st3 := Store(map[1 := Interval(MIN, 735352), 2 := Interval(735353, 735355), 3 := Interval(735361, MAX), 4 := r], 5);
    assert Overlap.ResolveOne(st1, r, 2, Interval(735353, 735358)) == st2 by {
      assert Overlap.Classify(Interval(735353, 735358), r) == Overlap.TruncateEnd;
    }
    var rest: seq<(Id, Interval)> := memo[1..];
    assert rest == [(3, Interval(735359, MAX))] && rest[1..] == [];
    assert Overlap.ResolveOne(st2, r, 3, Interval(735359, MAX)) == st3 by {
      assert Overlap.Classify(Interval(735359, MAX), r) == Overlap.TruncateStart;
    }
    assert Overlap.ResolveEach(st2, r, rest) == st3;
  }

  /** After the split of 2014-05-01 .. 2014-05-06 out of `[MIN, MAX]`, a new
      record for 2014-05-04 .. 2014-05-08 makes the middle record end on
      2014-05-03; four records remain. */
  lemma EndIsTruncated()
    ensures Save(Store(map[1 := Interval(MIN, 735352), 2 := Interval(735353, 735358), 3 := Interval(735359, MAX)], 4), Create, Draft(Some(735356), Some(735360)), [1, 2, 3], false)
            == Success(Store(map[1 := Interval(MIN, 735352), 2 := Interval(735353, 735355),
                                 3 := Interval(735361, MAX), 4 := Interval(735356, 735360)], 5))
  {
    var d := Draft(Some(735356), Some(735360));
    assert SaveErrors(SplitGroup(), Create, d, false) == {};
    assert Write(SplitGroup(), Create, Interval(735356, 735360)) == Store(SplitGroup().records[4 := Interval(735356, 735360)], 5);
    EndTruncateMemo();
    EndTruncateResolve();
  }

  /** The records a new one for 2014-04-28 .. 2014-05-02 overlaps: the first
      one and the middle one. */
  lemma StartTruncateMemo()
    ensures Overlap.Overlapping(SplitGroup().records[4 := Interval(735350, 735354)], 4, [1, 2, 3])
            == [(1, Interval(MIN, 735352)), (2, Interval(735353, 735358))]
  {
    var recs := SplitGroup().records[4 := Interval(735350, 735354)];
    assert Overlap.Overlapping(recs, 4, []) == [];
    assert Overlap.Overlapping(recs, 4, [3]) == [];
    assert Overlap.Overlapping(recs, 4, [2, 3]) == [(2, Interval(735353, 735358))] by { assert [2, 3][1..] == [3]; }
    assert [1, 2, 3][1..] == [2, 3];
  }

  /** The visit ends the first record on 2014-04-27 and starts the middle
      one on 2014-05-03. */
  lemma StartTruncateResolve()
    ensures Overlap.ResolveEach(Store(SplitGroup().records[4 := Interval(735350, 735354)], 5), Interval(735350, 735354),
                                [(1, Interval(MIN, 735352)), (2, Interval(735353, 735358))])
            == Store(map[1 := Interval(MIN, 735349), 2 := Interval(735355, 735358), 3 := Interval(735359, MAX),
                         4 := Interval(735350, 735354)], 5)
  {
    var r := Interval(735350, 735354);
    var st1 := Store(SplitGroup().records[4 := r], 5);
    var memo := [(1, Interval(MIN, 735352)), (2, Interval(735353, 735358))];
    var st2 := Store(map[1 := Interval(MIN, 735349), 2 := Interval(735353, 735358), 3 := Interval(735359, MAX), 4 := r], 5);
    var st3 := Store(map[1 := Interval(MIN, 735349), 2 := Interval(735355, 735358), 3 := Interval(735359, MAX), 4 := r], 5);
    assert Overlap.ResolveOne(st1, r, 1, Interval(MIN, 735352)) == st2 by {
      assert Overlap.Classify(Interval(MIN, 735352), r) == Overlap.TruncateEnd;
    }
    var rest: seq<(Id, Interval)> := memo[1..];
    assert rest == [(2, Interval(735353, 735358))] && rest[1..] == [];
    assert Overlap.ResolveOne(st2, r, 2, Interval(735353, 735358)) == st3 by {
      assert Overlap.Classify(Interval(735353, 735358), r) == Overlap.TruncateStart;
    }
    assert Overlap.ResolveEach(st2, r, rest) == st3;
  }

  /** After the same split, a new record for 2014-04-28 .. 2014-05-02 cuts
      two records: the first now ends on 2014-04-27 and the middle one
      starts on 2014-05-03; four records remain. */
  lemma StartsAreTruncated()
    ensures Save(Store(map[1 := Interval(MIN, 735352), 2 := Interval(735353, 735358), 3 := Interval(735359, MAX)], 4), Create, Draft(Some(735350), Some(735354)), [1, 2, 3], false)
            == Success(Store(map[1 := Interval(MIN, 735349), 2 := Interval(735355, 735358),
                                 3 := Interval(735359, MAX), 4 := Interval(735350, 735354)], 5))
  {
    var d := Draft(Some(735350), Some(735354));
    assert SaveErrors(SplitGroup(), Create, d, false) == {};
    assert Write(SplitGroup(), Create, Interval(735350, 735354)) == Store(SplitGroup().records[4 := Interval(735350, 735354)], 5);
    StartTruncateMemo();
    StartTruncateResolve();
  }

  /** A lone record for 2014-07-21 .. 2014-07-24 and a new one for
      2014-07-21 .. 2014-07-22, starting on the same day: the old record
      now starts on 2014-07-23; two records remain. */
  lemma StartAtBeginning()
    ensures Save(Store(map[1 := Interval(735434, 735437)], 2), Create, Draft(Some(735434), Some(735435)), [1], false)
            == Success(Store(map[1 := Interval(735436, 735437), 2 := Interval(735434, 735435)], 3))
  {
    var st := Store(map[1 := Interval(735434, 735437)], 2);
    var d := Draft(Some(735434), Some(735435));
    var r := Interval(735434, 735435);
    assert SaveErrors(st, Create, d, false) == {};
    var st1 := Store(map[1 := Interval(735434, 735437), 2 := r], 3);
    assert Write(st, Create, r) == st1;
    var memo := Overlap.Overlapping(st1.records, 2, [1]);
    assert Overlap.Overlapping(st1.records, 2, []) == [];
    assert memo == [(1, Interval(735434, 735437))] by { assert [1][1..] == []; }
    assert Overlap.Classify(Interval(735434, 735437), r) == Overlap.TruncateStart;
    var st2 := Overlap.ResolveOne(st1, r, 1, Interval(735434, 735437));
    assert st2 == Store(map[1 := Interval(735436, 735437), 2 := r], 3);
    assert Overlap.ResolveEach(st1, r, memo) == Overlap.ResolveEach(st2, r, []);
  }

  /** The three gapless assignments of the specs: `[MIN, 2018-01-15]`,
      `[2018-01-16, 2018-02-15]`, `[2018-02-16, MAX]`. */
  function Assignments(): Store {
    Store(map[1 := Interval(MIN, 736708), 2 := Interval(736709, 736739), 3 := Interval(736740, MAX)], 4)
  }

  /** The first and the last assignment cannot be destroyed; destroying the
      middle one stretches the first to 2018-02-15. */
  lemma GaplessDestroys()
    ensures Destroy(Assignments(), 1).Failure?
    ensures Destroy(Assignments(), 3).Failure?
    ensures Destroy(Assignments(), 2)
            == Success(Store(map[1 := Interval(MIN, 736739), 3 := Interval(736740, MAX)], 4))
  {
    var rest := Store(map[1 := Interval(MIN, 736708), 3 := Interval(736740, MAX)], 4);
    assert Assignments().records - {2} == rest.records;
    assert IsMatch(rest.records, 2, EndAt, 736708, 1);
    assert !IsMatch(rest.records, 2, EndAt, 736708, 0);
    assert FindSibling(rest, 2, EndAt, 736708) == Some(1);
    assert rest.records[1 := Interval(MIN, 736739)] == map[1 := Interval(MIN, 736739), 3 := Interval(736740, MAX)];
  }

  /** Moving the first assignment's start away from MIN, or the last one's
      end away from MAX, is refused. */
  lemma GaplessEdgesAreFixed()
    ensures var res := Save(Assignments(), Update(1), Draft(Some(736700), Some(736708)), [1, 2, 3], true);
            res.Failure? && Invalid(StartAt) in res.error
    ensures var res := Save(Assignments(), Update(3), Draft(Some(736740), Some(736800)), [1, 2, 3], true);
            res.Failure? && Invalid(EndAt) in res.error
  {
    assert Invalid(StartAt) in GaplessErrors(Some(Interval(MIN, 736708)), Draft(Some(736700), Some(736708)));
    assert Invalid(EndAt) in GaplessErrors(Some(Interval(736740, MAX)), Draft(Some(736740), Some(736800)));
  }

  /** A middle assignment that stays within its old span overlaps neither
      neighbour, so resolution changes nothing. */
  lemma InsideRound(r: Interval)
    requires 736709 <= r.start <= r.end <= 736739
    ensures Overlap.AfterSave(Store(map[1 := First, 2 := r, 3 := Last], 4), 2, [1, 2, 3])
            == Store(map[1 := First, 2 := r, 3 := Last], 4)
  {
    var recs := map[1 := First, 2 := r, 3 := Last];
    assert Overlap.Overlapping(recs, 2, [1, 2, 3]) == [] by {
      assert Overlap.Overlapping(recs, 2, []) == [];
      assert Overlap.Overlapping(recs, 2, [3]) == [];
      assert Overlap.Overlapping(recs, 2, [2, 3]) == [] by { assert [2, 3][1..] == [3]; }
      assert [1, 2, 3][1..] == [2, 3];
    }
  }

  /** The gap left by the later start is closed by the first assignment. */
  lemma StartShiftGaps()
    ensures AdjustGaps(Store(map[1 := First, 2 := Interval(736713, 736739), 3 := Last], 4), 2, Some(Middle))
            == Store(map[1 := Interval(MIN, 736712), 2 := Interval(736713, 736739), 3 := Last], 4)
  {
    var st1 := Store(map[1 := First, 2 := Interval(736713, 736739), 3 := Last], 4);
    var st2 := Store(map[1 := Interval(MIN, 736712), 2 := Interval(736713, 736739), 3 := Last], 4);
    assert FindSibling(st1, 2, EndAt, 736708) == Some(1) by {
      assert FindFrom(st1.records, 2, EndAt, 736708, 1, 4) == Some(1);
    }
    assert AdjustPreviousGap(st1, 2, Some(Middle)) == st2;
  }

  /** The gap left by the earlier end is closed by the last assignment. */
  lemma EndShiftGaps()
    ensures AdjustGaps(Store(map[1 := First, 2 := Interval(736709, 736734), 3 := Last], 4), 2, Some(Middle))
            == Store(map[1 := First, 2 := Interval(736709, 736734), 3 := Interval(736735, MAX)], 4)
  {
    var st1 := Store(map[1 := First, 2 := Interval(736709, 736734), 3 := Last], 4);
    assert AdjustPreviousGap(st1, 2, Some(Middle)) == st1;
    assert FindSibling(st1, 2, StartAt, 736740) == Some(3) by {
      assert FindFrom(st1.records, 2, StartAt, 736740, 3, 4) == Some(3);
      assert FindFrom(st1.records, 2, StartAt, 736740, 2, 4) == Some(3);
      assert FindFrom(st1.records, 2, StartAt, 736740, 1, 4) == Some(3);
    }
  }

  /** Moving the middle assignment's start to 2018-01-20 ends the first one on
      2018-01-19. */
  lemma GaplessStartShift()
    ensures Save(Assignments(), Update(2), Draft(Some(736713), Some(736739)), [1, 2, 3], true)
            == Success(Store(map[1 := Interval(MIN, 736712), 2 := Interval(736713, 736739),
                                 3 := Interval(736740, MAX)], 4))
  {
    var st := Assignments();
    var d := Draft(Some(736713), Some(736739));
    var r := Interval(736713, 736739);
    assert SaveErrors(st, Update(2), d, true) == {};
    assert Write(st, Update(2), r) == Store(map[1 := First, 2 := r, 3 := Last], 4);
    InsideRound(r);
    StartShiftGaps();
  }

  /** Moving the middle assignment's end to 2018-02-10 starts the last one
      on 2018-02-11. */
  lemma GaplessEndShift()
    ensures Save(Assignments(), Update(2), Draft(Some(736709), Some(736734)), [1, 2, 3], true)
            == Success(Store(map[1 := Interval(MIN, 736708), 2 := Interval(736709, 736734),
                                 3 := Interval(736735, MAX)], 4))
  {
    var st := Assignments();
    var d := Draft(Some(736709), Some(736734));
    var r := Interval(736709, 736734);
    assert SaveErrors(st, Update(2), d, true) == {};
    assert Write(st, Update(2), r) == Store(map[1 := First, 2 := r, 3 := Last], 4);
    InsideRound(r);
    EndShiftGaps();
  }

  /** The middle assignment moved back to MIN covers the first one, which
      resolution destroys. */
  lemma RefusedRound()
    ensures Overlap.AfterSave(Store(map[1 := First, 2 := Interval(MIN, 736739), 3 := Last], 4), 2, [1, 2, 3])
            == Store(map[2 := Interval(MIN, 736739), 3 := Last], 4)
  {
    var r := Interval(MIN, 736739);
    var st1 := Store(map[1 := First, 2 := r, 3 := Last], 4);
    var st2 := Store(map[2 := r, 3 := Last], 4);
    var memo := Overlap.Overlapping(st1.records, 2, [1, 2, 3]);
    assert memo == [(1, First)] by {
      assert Overlap.Overlapping(st1.records, 2, []) == [];
      assert Overlap.Overlapping(st1.records, 2, [3]) == [];
      assert Overlap.Overlapping(st1.records, 2, [2, 3]) == [] by { assert [2, 3][1..] == [3]; }
      assert [1, 2, 3][1..] == [2, 3];
    }
    assert Overlap.ResolveOne(st1, r, 1, First) == st2 by {
      assert Overlap.Classify(First, r) == Overlap.Destroy;
      assert st1.records - {1} == st2.records;
    }
    var none: seq<(Id, Interval)> := memo[1..];
    assert none == [];
    assert Overlap.ResolveEach(st1, r, memo) == Overlap.ResolveEach(st2, r, none);
  }

  /** The middle assignment moved clear of its old span, to
      2018-03-01 .. 2018-03-10: the last assignment is split around it. */
  lemma JumpRound()
    ensures Overlap.AfterSave(Store(map[1 := First, 2 := Interval(736753, 736762), 3 := Last], 4), 2, [1, 2, 3])
            == Store(map[1 := First, 2 := Interval(736753, 736762), 3 := Interval(736740, 736752),
                         4 := Interval(736763, MAX)], 5)
  {
    var r := Interval(736753, 736762);
    var st1 := Store(map[1 := First, 2 := r, 3 := Last], 4);
    var st2 := Store(map[1 := First, 2 := r, 3 := Interval(736740, 736752), 4 := Interval(736763, MAX)], 5);
    var memo := Overlap.Overlapping(st1.records, 2, [1, 2, 3]);
    assert memo == [(3, Last)] by {
      assert Overlap.Overlapping(st1.records, 2, []) == [];
      assert Overlap.Overlapping(st1.records, 2, [3]) == [(3, Last)] by { assert [3][1..] == []; }
      assert Overlap.Overlapping(st1.records, 2, [2, 3]) == [(3, Last)] by { assert [2, 3][1..] == [3]; }
      assert [1, 2, 3][1..] == [2, 3];
    }
    assert Overlap.ResolveOne(st1, r, 3, Last) == st2 by {
      assert Overlap.Classify(Last, r) == Overlap.Split;
    }
    var none: seq<(Id, Interval)> := memo[1..];
    assert none == [];
    assert Overlap.ResolveEach(st1, r, memo) == Overlap.ResolveEach(st2, r, none);
  }

  /** The first assignment closes the gap the later start left, which
      stretches it over the head of the split last assignment too. */
  lemma JumpGaps()
    ensures AdjustGaps(Store(map[1 := First, 2 := Interval(736753, 736762), 3 := Interval(736740, 736752),
                                 4 := Interval(736763, MAX)], 5), 2, Some(Middle))
            == Store(map[1 := Interval(MIN, 736752), 2 := Interval(736753, 736762), 3 := Interval(736740, 736752),
                         4 := Interval(736763, MAX)], 5)
  {
    var st2 := Store(map[1 := First, 2 := Interval(736753, 736762), 3 := Interval(736740, 736752),
                         4 := Interval(736763, MAX)], 5);
    assert FindSibling(st2, 2, EndAt, 736708) == Some(1) by {
      assert FindFrom(st2.records, 2, EndAt, 736708, 1, 5) == Some(1);
    }
  }

  /** One round of moving the middle assignment to 2018-03-01 .. 2018-03-10. */
  lemma JumpOneRound()
    ensures Save(Store(map[1 := Interval(MIN, 736708), 2 := Interval(736709, 736739), 3 := Interval(736740, MAX)], 4), Update(2), Draft(Some(736753), Some(736762)), [1, 2, 3], true)
            == Success(Store(map[1 := Interval(MIN, 736752), 2 := Interval(736753, 736762),
                                 3 := Interval(736740, 736752), 4 := Interval(736763, MAX)], 5))
  {
    var st := Assignments();
    var d := Draft(Some(736753), Some(736762));
    var r := Interval(736753, 736762);
    assert SaveErrors(st, Update(2), d, true) == {};
    assert Write(st, Update(2), r) == Store(map[1 := First, 2 := r, 3 := Last], 4);
    JumpRound();
    JumpGaps();
  }

  /** One round of an update that jumps clear of the old span: moving the
      middle assignment to 2018-03-01 .. 2018-03-10 splits the last one and
      stretches the first one to 2018-02-28, over the split's head, so two
      records cover 2018-02-16 and the result is no tiling. */
  lemma JumpLeavesOverlap()
    ensures Save(Store(map[1 := Interval(MIN, 736708), 2 := Interval(736709, 736739), 3 := Interval(736740, MAX)], 4), Update(2), Draft(Some(736753), Some(736762)), [1, 2, 3], true).Success?
    ensures !Tiles(Save(Store(map[1 := Interval(MIN, 736708), 2 := Interval(736709, 736739), 3 := Interval(736740, MAX)], 4), Update(2), Draft(Some(736753), Some(736762)), [1, 2, 3], true).value.records)
  {
    JumpOneRound();
    JumpCoversTwice(map[1 := Interval(MIN, 736752), 2 := Interval(736753, 736762),
                        3 := Interval(736740, 736752), 4 := Interval(736763, MAX)]);
  }

  /** The stretched first assignment and the split's head both cover
      2018-02-16. */
  lemma JumpCoversTwice(recs: map<Id, Interval>)
    requires recs == map[1 := Interval(MIN, 736752), 2 := Interval(736753, 736762),
                         3 := Interval(736740, 736752), 4 := Interval(736763, MAX)]
    ensures !AtMostOneCovers(recs)
  {
    assert recs[1].Contains(736740) && recs[3].Contains(736740);
  }

  /** One round of resolution for the middle assignment moved back to MIN:
      the first assignment, which the new span covers, is destroyed. */
  lemma RefusedOneRound()
    ensures Save(Assignments(), Update(2), Draft(Some(MIN), Some(736739)), [1, 2, 3], true)
            == Success(Store(map[2 := Interval(MIN, 736739), 3 := Last], 4))
  {
    var st := Assignments();
    var d := Draft(Some(MIN), Some(736739));
    var r := Interval(MIN, 736739);
    assert SaveErrors(st, Update(2), d, true) == {};
    var st1 := Store(map[1 := First, 2 := r, 3 := Last], 4);
    assert Write(st, Update(2), r) == st1;
    var st2 := Store(map[2 := r, 3 := Last], 4);
    RefusedRound();
    assert AdjustGaps(st2, 2, Some(Middle)) == st2;
  }

  /** The same update with the nested callbacks: the first assignment's own
      destroy guard refuses, so nothing is removed. */
  lemma RefusedCascade(fuel: nat)
    ensures Cascade.Save(Assignments(), Update(2), Draft(Some(MIN), Some(736739)), true, fuel + 1)
            == Success(Cascade.Run(Store(map[1 := First, 2 := Interval(MIN, 736739), 3 := Last], 4), true))
  {
    var st := Assignments();
    var d := Draft(Some(MIN), Some(736739));
    var r := Interval(MIN, 736739);
    assert SaveErrors(st, Update(2), d, true) == {};
    var st1 := Store(map[1 := First, 2 := r, 3 := Last], 4);
    assert Write(st, Update(2), r) == st1;
    assert Cascade.Step(st1, r, 1, First, true, fuel) == Cascade.Run(st1, true) by {
      assert Overlap.Classify(First, r) == Overlap.Destroy;
      assert DestroyErrors(First) != {};
    }
    Cascade.ResolveSingle(st1, r, 1, First, true, fuel);
    assert Overlaps(First, r) && !Overlaps(Last, r);
    Cascade.ScanOnly(st1.records, 2, r, 0, 4, 1);
  }

  /** Moving the middle assignment's start back to MIN. One round of
      resolution destroys the first assignment, which the new span covers.
      With the nested callbacks the destroy runs the first assignment's own
      guard, which refuses because it starts at MIN: the row stays, and the
      first two assignments overlap. */
  lemma RefusedDestroyLeavesOverlap(fuel: nat)
    ensures var d := Draft(Some(MIN), Some(736739));
            && Save(Store(map[1 := Interval(MIN, 736708), 2 := Interval(736709, 736739), 3 := Interval(736740, MAX)], 4), Update(2), d, [1, 2, 3], true)
                 == Success(Store(map[2 := Interval(MIN, 736739), 3 := Interval(736740, MAX)], 4))
            && Cascade.Save(Store(map[1 := Interval(MIN, 736708), 2 := Interval(736709, 736739), 3 := Interval(736740, MAX)], 4), Update(2), d, true, fuel + 1)
                 == Success(Cascade.Run(Store(map[1 := Interval(MIN, 736708), 2 := Interval(MIN, 736739),
                                                  3 := Interval(736740, MAX)], 4), true))
  {
    RefusedOneRound();
    RefusedCascade(fuel);
  }

  /** Siblings that already overlap: `[10, 20]`, `[21, 30]` and `[25, 40]`. */
  function Crossed(): Store {
    Store(map[1 := Interval(10, 20), 2 := Interval(21, 30), 3 := Interval(25, 40)], 4)
  }

  /** Destroying the middle sibling stretches the first to 30, over the
      start of the third. */
  lemma CrossedDestroy()
    ensures Destroy(Crossed(), 2)
            == Success(Store(map[1 := Interval(10, 30), 3 := Interval(25, 40)], 4))
  {
    var rest := Store(map[1 := Interval(10, 20), 3 := Interval(25, 40)], 4);
    assert Crossed().records - {2} == rest.records;
    assert !IsMatch(rest.records, 2, EndAt, 20, 0) && IsMatch(rest.records, 2, EndAt, 20, 1);
    assert FindSibling(rest, 2, EndAt, 20) == Some(1);
    assert rest.records[1 := Interval(10, 30)] == map[1 := Interval(10, 30), 3 := Interval(25, 40)];
  }

  /** The save of the truncated third sibling overlaps nothing, and the
      predecessor its later start looks for (one ending on 24) is absent. */
  lemma CrossedTailSave(fuel: nat)
    ensures var db := Store(map[1 := Interval(10, 30), 3 := Interval(31, 40)], 4);
            Cascade.Saved(db, 3, Interval(31, 40), Some(Interval(25, 40)), true, fuel + 1)
            == Cascade.Run(db, true)
  {
    var db := Store(map[1 := Interval(10, 30), 3 := Interval(31, 40)], 4);
    assert !Overlaps(Interval(10, 30), Interval(31, 40));
    Cascade.ScanNone(db.records, 3, Interval(31, 40), 0, 4);
    assert !IsMatch(db.records, 3, EndAt, 24, 1);
    assert FindSibling(db, 3, EndAt, 24) == None;
  }

  /** The save of the stretched first sibling truncates the third to start
      at 31. */
  lemma CrossedStretchSave(fuel: nat)
    ensures Cascade.Saved(Store(map[1 := Interval(10, 30), 3 := Interval(25, 40)], 4), 1, Interval(10, 30),
                          Some(Interval(10, 20)), true, fuel + 2)
            == Cascade.Run(Store(map[1 := Interval(10, 30), 3 := Interval(31, 40)], 4), true)
  {
    var db := Store(map[1 := Interval(10, 30), 3 := Interval(25, 40)], 4);
    var r := Interval(10, 30);
    assert Overlaps(Interval(25, 40), r);
    Cascade.ScanOnly(db.records, 1, r, 0, 4, 3);
    assert Overlap.Classify(Interval(25, 40), r) == Overlap.TruncateStart;
    assert Cascade.WriteCopy(db, 3, Interval(25, 40), Interval(31, 40))
           == Store(map[1 := Interval(10, 30), 3 := Interval(31, 40)], 4);
    CrossedTailSave(fuel);
    Cascade.ResolveSingle(db, r, 3, Interval(25, 40), true, fuel + 1);
  }

  /** With the nested callbacks the destroy goes further than the one-round
      `Destroy`: the stretched first sibling's own save truncates the third,
      so the two no longer overlap. */
  lemma CrossedDestroyCascade(fuel: nat)
    ensures Destroy(Store(map[1 := Interval(10, 20), 2 := Interval(21, 30), 3 := Interval(25, 40)], 4), 2)
            == Success(Store(map[1 := Interval(10, 30), 3 := Interval(25, 40)], 4))
    ensures Cascade.Destroyed(Store(map[1 := Interval(10, 20), 2 := Interval(21, 30), 3 := Interval(25, 40)], 4),
                              2, Interval(21, 30), true, fuel + 2)
            == Cascade.Run(Store(map[1 := Interval(10, 30), 3 := Interval(31, 40)], 4), true)
  {
    CrossedDestroy();
    var rest := Store(map[1 := Interval(10, 20), 3 := Interval(25, 40)], 4);
    assert Crossed().records - {2} == rest.records;
    assert !IsMatch(rest.records, 2, EndAt, 20, 0) && IsMatch(rest.records, 2, EndAt, 20, 1);
    assert FindSibling(rest, 2, EndAt, 20) == Some(1);
    assert Cascade.WriteCopy(rest, 1, Interval(10, 20), Interval(10, 30))
           == Store(map[1 := Interval(10, 30), 3 := Interval(25, 40)], 4);
    CrossedStretchSave(fuel);
  }

  // The bounds met while a new assignment for 2018-01-20 .. 2018-01-25 is
  // created inside the middle one.
  const First := Interval(MIN, 736708)
  const Middle := Interval(736709, 736739)
  const Last := Interval(736740, MAX)
  const Inner := Interval(736713, 736718)
  const HeadPart := Interval(736709, 736712)
  const TailPart := Interval(736719, 736739)
  const Stretched := Interval(736709, 736718)
  const Dragged := Interval(736713, MAX)
  const PushedBack := Interval(736719, MAX)

  /** The siblings the inserted record overlaps: the middle assignment. */
  lemma SplitScan(recs: map<Id, Interval>)
    requires recs == map[1 := First, 2 := Middle, 3 := Last, 4 := Inner]
    ensures Cascade.Scan(recs, 4, Inner, 0, 5) == [(2, Middle)]
  {
    assert !Overlaps(First, Inner) && Overlaps(Middle, Inner) && !Overlaps(Last, Inner);
    Cascade.ScanOnly(recs, 4, Inner, 0, 5, 2);
  }

  /** The head of the split middle assignment overlaps no sibling. */
  lemma HeadScan(recs: map<Id, Interval>)
    requires recs == map[1 := First, 2 := HeadPart, 3 := Last, 4 := Inner]
    ensures Cascade.Scan(recs, 2, HeadPart, 0, 5) == []
  {
    assert !Overlaps(First, HeadPart) && !Overlaps(Last, HeadPart) && !Overlaps(Inner, HeadPart);
    Cascade.ScanNone(recs, 2, HeadPart, 0, 5);
  }

  /** The sibling starting where the middle assignment used to end is the last assignment. */
  lemma DragFind(recs: map<Id, Interval>)
    requires recs == map[1 := First, 2 := HeadPart, 3 := Last, 4 := Inner]
    ensures FindSibling(Store(recs, 5), 2, StartAt, 736740) == Some(3)
  {
    assert FindFrom(recs, 2, StartAt, 736740, 5, 5) == None;
    assert FindFrom(recs, 2, StartAt, 736740, 4, 5) == None;
    assert FindFrom(recs, 2, StartAt, 736740, 3, 5) == Some(3);
    assert FindFrom(recs, 2, StartAt, 736740, 2, 5) == Some(3);
    assert FindFrom(recs, 2, StartAt, 736740, 1, 5) == Some(3);
  }

  /** The dragged last assignment overlaps the inserted record. */
  lemma DraggedScan(recs: map<Id, Interval>)
    requires recs == map[1 := First, 2 := HeadPart, 3 := Dragged, 4 := Inner]
    ensures Cascade.Scan(recs, 3, Dragged, 0, 5) == [(4, Inner)]
  {
    assert !Overlaps(First, Dragged) && !Overlaps(HeadPart, Dragged) && Overlaps(Inner, Dragged);
    Cascade.ScanOnly(recs, 3, Dragged, 0, 5, 4);
  }

  /** The sibling ending just before the destroyed record is the head. */
  lemma StretchFind(recs: map<Id, Interval>)
    requires recs == map[1 := First, 2 := HeadPart, 3 := Dragged]
    ensures FindSibling(Store(recs, 5), 4, EndAt, 736712) == Some(2)
  {
    assert FindFrom(recs, 4, EndAt, 736712, 5, 5) == None;
    assert FindFrom(recs, 4, EndAt, 736712, 4, 5) == None;
    assert FindFrom(recs, 4, EndAt, 736712, 3, 5) == None;
    assert FindFrom(recs, 4, EndAt, 736712, 2, 5) == Some(2);
    assert FindFrom(recs, 4, EndAt, 736712, 1, 5) == Some(2);
  }

  /** The stretched head overlaps the dragged last assignment. */
  lemma StretchedHeadScan(recs: map<Id, Interval>)
    requires recs == map[1 := First, 2 := Stretched, 3 := Dragged]
    ensures Cascade.Scan(recs, 2, Stretched, 0, 5) == [(3, Dragged)]
  {
    assert !Overlaps(First, Stretched) && Overlaps(Dragged, Stretched);
    Cascade.ScanOnly(recs, 2, Stretched, 0, 5, 3);
  }

  /** The pushed-back last assignment overlaps no sibling. */
  lemma InnermostScan(recs: map<Id, Interval>)
    requires recs == map[1 := First, 2 := Stretched, 3 := PushedBack]
    ensures Cascade.Scan(recs, 3, PushedBack, 0, 5) == []
  {
    assert !Overlaps(First, PushedBack) && !Overlaps(Stretched, PushedBack);
    Cascade.ScanNone(recs, 3, PushedBack, 0, 5);
  }

  /** No sibling ends where the dragged last assignment used to start. */
  lemma InnermostFind(recs: map<Id, Interval>)
    requires recs == map[1 := First, 2 := Stretched, 3 := PushedBack]
    ensures FindSibling(Store(recs, 5), 3, EndAt, 736712) == None
  {
    assert FindFrom(recs, 3, EndAt, 736712, 5, 5) == None;
    assert FindFrom(recs, 3, EndAt, 736712, 4, 5) == None;
    assert FindFrom(recs, 3, EndAt, 736712, 3, 5) == None;
    assert FindFrom(recs, 3, EndAt, 736712, 2, 5) == None;
    assert FindFrom(recs, 3, EndAt, 736712, 1, 5) == None;
  }

  /** The tail of the split overlaps the pushed-back last assignment. */
  lemma TailScan(recs: map<Id, Interval>)
    requires recs == map[1 := First, 2 := Stretched, 3 := PushedBack, 5 := TailPart]
    ensures Cascade.Scan(recs, 5, TailPart, 0, 6) == [(3, PushedBack)]
  {
    assert !Overlaps(First, TailPart) && !Overlaps(Stretched, TailPart) && Overlaps(PushedBack, TailPart);
    Cascade.ScanOnly(recs, 5, TailPart, 0, 6, 3);
  }

  /** The last assignment, back at its old start, overlaps no sibling. */
  lemma PushedBackScan(recs: map<Id, Interval>)
    requires recs == map[1 := First, 2 := Stretched, 3 := Last, 5 := TailPart]
    ensures Cascade.Scan(recs, 3, Last, 0, 6) == []
  {
    assert !Overlaps(First, Last) && !Overlaps(Stretched, Last) && !Overlaps(TailPart, Last);
    Cascade.ScanNone(recs, 3, Last, 0, 6);
  }

  /** The sibling ending just before the pushed-back start is the stretched head. */
  lemma RestretchFind(recs: map<Id, Interval>)
    requires recs == map[1 := First, 2 := Stretched, 3 := Last, 5 := TailPart]
    ensures FindSibling(Store(recs, 6), 3, EndAt, 736718) == Some(2)
  {
    assert FindFrom(recs, 3, EndAt, 736718, 6, 6) == None;
    assert FindFrom(recs, 3, EndAt, 736718, 5, 6) == None;
    assert FindFrom(recs, 3, EndAt, 736718, 4, 6) == None;
    assert FindFrom(recs, 3, EndAt, 736718, 3, 6) == None;
    assert FindFrom(recs, 3, EndAt, 736718, 2, 6) == Some(2);
    assert FindFrom(recs, 3, EndAt, 736718, 1, 6) == Some(2);
  }

  /** The restored middle assignment overlaps the tail of the split. */
  lemma RestoredScan(recs: map<Id, Interval>)
    requires recs == map[1 := First, 2 := Middle, 3 := Last, 5 := TailPart]
    ensures Cascade.Scan(recs, 2, Middle, 0, 6) == [(5, TailPart)]
  {
    assert !Overlaps(First, Middle) && !Overlaps(Last, Middle) && Overlaps(TailPart, Middle);
    Cascade.ScanOnly(recs, 2, Middle, 0, 6, 5);
  }

  /** No sibling ends just before the destroyed tail. */
  lemma RestoredFind(recs: map<Id, Interval>)
    requires recs == map[1 := First, 2 := Middle, 3 := Last]
    ensures FindSibling(Store(recs, 6), 5, EndAt, 736718) == None
  {
    assert FindFrom(recs, 5, EndAt, 736718, 6, 6) == None;
    assert FindFrom(recs, 5, EndAt, 736718, 5, 6) == None;
    assert FindFrom(recs, 5, EndAt, 736718, 4, 6) == None;
    assert FindFrom(recs, 5, EndAt, 736718, 3, 6) == None;
    assert FindFrom(recs, 5, EndAt, 736718, 2, 6) == None;
    assert FindFrom(recs, 5, EndAt, 736718, 1, 6) == None;
  }


  /** The last assignment, cut back to start after the stretched head, finds
      nothing to resolve and no sibling ending where it used to start. */
  lemma UndoInnermost(fuel: nat)
    ensures var db := Store(map[1 := First, 2 := Stretched, 3 := PushedBack], 5);
            Cascade.Saved(db, 3, PushedBack, Some(Dragged), true, fuel + 1) == Cascade.Run(db, true)
  {
    var db := Store(map[1 := First, 2 := Stretched, 3 := PushedBack], 5);
    assert Cascade.Adjust(db, 3, EndAt, 736712, EndAt, 736718, fuel) == Cascade.Run(db, true) by {
      InnermostFind(db.records);
    }
    assert Cascade.Resolve(db, PushedBack, [], true, fuel) == Cascade.Run(db, true);
    InnermostScan(db.records);
  }

  /** The stretched head cuts the dragged last assignment back to start
      after it. */
  lemma StretchedHeadStep(fuel: nat)
    ensures Cascade.Step(Store(map[1 := First, 2 := Stretched, 3 := Dragged], 5), Stretched, 3, Dragged, true, fuel + 1)
            == Cascade.Run(Store(map[1 := First, 2 := Stretched, 3 := PushedBack], 5), true)
  {
    var db := Store(map[1 := First, 2 := Stretched, 3 := Dragged], 5);
    assert Overlap.Classify(Dragged, Stretched) == Overlap.TruncateStart;
    assert Overlap.Tail(Dragged, Stretched) == PushedBack;
    assert Cascade.WriteCopy(db, 3, Dragged, PushedBack) == Store(map[1 := First, 2 := Stretched, 3 := PushedBack], 5);
    UndoInnermost(fuel);
  }

  /** The head, stretched over the destroyed record, cuts the dragged last
      assignment back. */
  lemma UndoStretchedHead(fuel: nat)
    ensures var db := Store(map[1 := First, 2 := Stretched, 3 := Dragged], 5);
            Cascade.Saved(db, 2, Stretched, Some(HeadPart), true, fuel + 2)
              == Cascade.Run(Store(map[1 := First, 2 := Stretched, 3 := PushedBack], 5), true)
  {
    var db := Store(map[1 := First, 2 := Stretched, 3 := Dragged], 5);
    StretchedHeadStep(fuel);
    Cascade.ResolveSingle(db, Stretched, 3, Dragged, true, fuel + 1);
    StretchedHeadScan(db.records);
  }

  /** With the new record destroyed, the head, which ends just before it,
      is stretched to the destroyed record's end. */
  lemma UndoStretch(fuel: nat)
    ensures Cascade.Adjust(Store(map[1 := First, 2 := HeadPart, 3 := Dragged], 5), 4, EndAt, 736712, EndAt, 736718, fuel + 2)
            == Cascade.Run(Store(map[1 := First, 2 := Stretched, 3 := PushedBack], 5), true)
  {
    var rest := Store(map[1 := First, 2 := HeadPart, 3 := Dragged], 5);
    assert Cascade.WriteCopy(rest, 2, HeadPart, Stretched) == Store(map[1 := First, 2 := Stretched, 3 := Dragged], 5);
    assert Cascade.Put(HeadPart, EndAt, 736718) == Stretched;
    StretchFind(rest.records);
    UndoStretchedHead(fuel);
  }

  /** The dragged last assignment destroys the new record it now covers. */
  lemma DraggedStep(fuel: nat)
    ensures Cascade.Step(Store(map[1 := First, 2 := HeadPart, 3 := Dragged, 4 := Inner], 5), Dragged, 4, Inner, true, fuel + 2)
            == Cascade.Run(Store(map[1 := First, 2 := Stretched, 3 := PushedBack], 5), true)
  {
    var db := Store(map[1 := First, 2 := HeadPart, 3 := Dragged, 4 := Inner], 5);
    assert Overlap.Classify(Inner, Dragged) == Overlap.Destroy;
    assert DestroyErrors(Inner) == {};
    assert db.(records := db.records - {4}) == Store(map[1 := First, 2 := HeadPart, 3 := Dragged], 5);
    UndoStretch(fuel);
  }

  /** The last assignment, dragged back over the new record, destroys it. */
  lemma UndoDragged(fuel: nat)
    ensures var db := Store(map[1 := First, 2 := HeadPart, 3 := Dragged, 4 := Inner], 5);
            Cascade.Saved(db, 3, Dragged, Some(Last), true, fuel + 3)
              == Cascade.Run(Store(map[1 := First, 2 := Stretched, 3 := PushedBack], 5), true)
  {
    var db := Store(map[1 := First, 2 := HeadPart, 3 := Dragged, 4 := Inner], 5);
    DraggedStep(fuel);
    Cascade.ResolveSingle(db, Dragged, 4, Inner, true, fuel + 2);
    DraggedScan(db.records);
  }

  /** The head leaves a gap before the last assignment, which is dragged
      back to start right after the head. */
  lemma UndoDrag(fuel: nat)
    ensures Cascade.Adjust(Store(map[1 := First, 2 := HeadPart, 3 := Last, 4 := Inner], 5), 2, StartAt, 736740, StartAt, 736713, fuel + 3)
            == Cascade.Run(Store(map[1 := First, 2 := Stretched, 3 := PushedBack], 5), true)
  {
    var db := Store(map[1 := First, 2 := HeadPart, 3 := Last, 4 := Inner], 5);
    assert Cascade.WriteCopy(db, 3, Last, Dragged) == Store(map[1 := First, 2 := HeadPart, 3 := Dragged, 4 := Inner], 5);
    assert Cascade.Put(Last, StartAt, 736713) == Dragged;
    DragFind(db.records);
    UndoDragged(fuel);
  }

  /** The head of the split middle assignment overlaps nothing, and closes
      the gap it leaves. */
  lemma UndoHead(fuel: nat)
    ensures var db := Store(map[1 := First, 2 := HeadPart, 3 := Last, 4 := Inner], 5);
            Cascade.Saved(db, 2, HeadPart, Some(Middle), true, fuel + 4)
              == Cascade.Run(Store(map[1 := First, 2 := Stretched, 3 := PushedBack], 5), true)
  {
    var db := Store(map[1 := First, 2 := HeadPart, 3 := Last, 4 := Inner], 5);
    assert Cascade.Resolve(db, HeadPart, [], true, fuel + 3) == Cascade.Run(db, true);
    UndoDrag(fuel);
    HeadScan(db.records);
  }

  /** The restored middle assignment destroys the tail of the split, and no
      sibling ends just before that tail. */
  lemma RestoredStep(fuel: nat)
    ensures Cascade.Step(Store(map[1 := First, 2 := Middle, 3 := Last, 5 := TailPart], 6), Middle, 5, TailPart, true, fuel + 1)
            == Cascade.Run(Assignments().(nextId := 6), true)
  {
    var db := Store(map[1 := First, 2 := Middle, 3 := Last, 5 := TailPart], 6);
    var out := Store(map[1 := First, 2 := Middle, 3 := Last], 6);
    assert Overlap.Classify(TailPart, Middle) == Overlap.Destroy;
    assert DestroyErrors(TailPart) == {};
    assert db.(records := db.records - {5}) == out;
    assert Cascade.Adjust(out, 5, EndAt, 736718, EndAt, 736739, fuel + 1) == Cascade.Run(out, true) by {
      RestoredFind(out.records);
    }
    assert out == Assignments().(nextId := 6);
  }

  /** The middle assignment, stretched back to its old end, destroys the
      inserted tail. */
  lemma UndoRestored(fuel: nat)
    ensures var db := Store(map[1 := First, 2 := Middle, 3 := Last, 5 := TailPart], 6);
            Cascade.Saved(db, 2, Middle, Some(Stretched), true, fuel + 2) == Cascade.Run(Assignments().(nextId := 6), true)
  {
    var db := Store(map[1 := First, 2 := Middle, 3 := Last, 5 := TailPart], 6);
    RestoredStep(fuel);
    Cascade.ResolveSingle(db, Middle, 5, TailPart, true, fuel + 1);
    RestoredScan(db.records);
  }

  /** The last assignment moved its start later, so the middle one, which
      ends just before the old start, is stretched back to its old end. */
  lemma UndoRestretch(fuel: nat)
    ensures Cascade.Adjust(Store(map[1 := First, 2 := Stretched, 3 := Last, 5 := TailPart], 6), 3, EndAt, 736718, EndAt, 736739, fuel + 2)
            == Cascade.Run(Assignments().(nextId := 6), true)
  {
    var db := Store(map[1 := First, 2 := Stretched, 3 := Last, 5 := TailPart], 6);
    assert Cascade.WriteCopy(db, 2, Stretched, Middle) == Store(map[1 := First, 2 := Middle, 3 := Last, 5 := TailPart], 6);
    assert Cascade.Put(Stretched, EndAt, 736739) == Middle;
    RestretchFind(db.records);
    UndoRestored(fuel);
  }

  /** The last assignment, pushed back to its old start, overlaps nothing
      and closes the gap before it. */
  lemma UndoPushedBack(fuel: nat)
    ensures var db := Store(map[1 := First, 2 := Stretched, 3 := Last, 5 := TailPart], 6);
            Cascade.Saved(db, 3, Last, Some(PushedBack), true, fuel + 3) == Cascade.Run(Assignments().(nextId := 6), true)
  {
    var db := Store(map[1 := First, 2 := Stretched, 3 := Last, 5 := TailPart], 6);
    assert Cascade.Resolve(db, Last, [], true, fuel + 2) == Cascade.Run(db, true);
    UndoRestretch(fuel);
    PushedBackScan(db.records);
  }

  /** The tail of the split cuts the pushed-back last assignment to start
      after it again. */
  lemma TailStep(fuel: nat)
    ensures Cascade.Step(Store(map[1 := First, 2 := Stretched, 3 := PushedBack, 5 := TailPart], 6), TailPart, 3, PushedBack, true, fuel + 3)
            == Cascade.Run(Assignments().(nextId := 6), true)
  {
    var db := Store(map[1 := First, 2 := Stretched, 3 := PushedBack, 5 := TailPart], 6);
    assert Overlap.Classify(PushedBack, TailPart) == Overlap.TruncateStart;
    assert Overlap.Tail(PushedBack, TailPart) == Last;
    assert Cascade.WriteCopy(db, 3, PushedBack, Last) == Store(map[1 := First, 2 := Stretched, 3 := Last, 5 := TailPart], 6);
    UndoPushedBack(fuel);
  }

  /** The inserted tail of the split pushes the last assignment back. */
  lemma UndoTail(fuel: nat)
    ensures var db := Store(map[1 := First, 2 := Stretched, 3 := PushedBack, 5 := TailPart], 6);
            Cascade.Saved(db, 5, TailPart, None, true, fuel + 4) == Cascade.Run(Assignments().(nextId := 6), true)
  {
    var db := Store(map[1 := First, 2 := Stretched, 3 := PushedBack, 5 := TailPart], 6);
    TailStep(fuel);
    Cascade.ResolveSingle(db, TailPart, 3, PushedBack, true, fuel + 3);
    TailScan(db.records);
  }

  /** The two halves of the split middle assignment, saved in turn: the head
      in place, the tail as a new row. */
  lemma UndoHalves(fuel: nat)
    ensures var hd := Cascade.Saved(Store(map[1 := First, 2 := HeadPart, 3 := Last, 4 := Inner], 5), 2, HeadPart,
                                    Some(Middle), true, fuel + 4);
            var n := hd.db.nextId;
            && hd.done
            && Cascade.Saved(Store(hd.db.records[n := TailPart], n + 1), n, TailPart, None, true, fuel + 4)
               == Cascade.Run(Assignments().(nextId := 6), true)
  {
    var mid := Store(map[1 := First, 2 := Stretched, 3 := PushedBack], 5);
    UndoHead(fuel);
    UndoTail(fuel);
    assert Store(mid.records[5 := TailPart], 6) == Store(map[1 := First, 2 := Stretched, 3 := PushedBack, 5 := TailPart], 6);
  }

  /** The new record splits the middle assignment around it, and the saves
      of the two halves undo the split. */
  lemma SplitStep(fuel: nat)
    ensures Cascade.Step(Store(map[1 := First, 2 := Middle, 3 := Last, 4 := Inner], 5), Inner, 2, Middle, true, fuel + 4)
            == Cascade.Run(Assignments().(nextId := 6), true)
  {
    var db := Store(map[1 := First, 2 := Middle, 3 := Last, 4 := Inner], 5);
    assert Overlap.Classify(Middle, Inner) == Overlap.Split;
    assert Overlap.Head(Middle, Inner) == HeadPart && Overlap.Tail(Middle, Inner) == TailPart;
    assert Cascade.WriteCopy(db, 2, Middle, HeadPart) == Store(map[1 := First, 2 := HeadPart, 3 := Last, 4 := Inner], 5);
    UndoHalves(fuel);
  }

  /** The new record's own save splits the middle assignment around it; the
      head and the tail then undo it. */
  lemma UndoSplit(fuel: nat)
    ensures var db := Store(map[1 := First, 2 := Middle, 3 := Last, 4 := Inner], 5);
            Cascade.Saved(db, 4, Inner, None, true, fuel + 5) == Cascade.Run(Assignments().(nextId := 6), true)
  {
    var db := Store(map[1 := First, 2 := Middle, 3 := Last, 4 := Inner], 5);
    SplitStep(fuel);
    Cascade.ResolveSingle(db, Inner, 2, Middle, true, fuel + 4);
    SplitScan(db.records);
  }

  /** The one sibling the new assignment inside the middle one overlaps. */
  lemma CreateMemo()
    ensures Overlap.Overlapping(map[1 := First, 2 := Middle, 3 := Last, 4 := Inner], 4, [1, 2, 3]) == [(2, Middle)]
  {
    var recs := map[1 := First, 2 := Middle, 3 := Last, 4 := Inner];
    assert Overlap.Overlapping(recs, 4, []) == [];
    assert Overlap.Overlapping(recs, 4, [3]) == [];
    assert Overlap.Overlapping(recs, 4, [2, 3]) == [(2, Middle)] by { assert [2, 3][1..] == [3]; }
    assert [1, 2, 3][1..] == [2, 3];
  }

  /** The middle assignment, split around the new one. */
  lemma CreateSplit()
    ensures Overlap.ResolveOne(Store(map[1 := First, 2 := Middle, 3 := Last, 4 := Inner], 5), Inner, 2, Middle)
            == Store(map[1 := First, 2 := HeadPart, 3 := Last, 4 := Inner, 5 := TailPart], 6)
  {
    assert Overlap.Classify(Middle, Inner) == Overlap.Split;
    assert Overlap.Head(Middle, Inner) == HeadPart && Overlap.Tail(Middle, Inner) == TailPart;
  }

  /** Resolution splits the middle assignment around the new one. */
  lemma CreateRound()
    ensures Overlap.AfterSave(Store(map[1 := First, 2 := Middle, 3 := Last, 4 := Inner], 5), 4, [1, 2, 3])
            == Store(map[1 := First, 2 := HeadPart, 3 := Last, 4 := Inner, 5 := TailPart], 6)
  {
    var db0 := Store(map[1 := First, 2 := Middle, 3 := Last, 4 := Inner], 5);
    var one := Store(map[1 := First, 2 := HeadPart, 3 := Last, 4 := Inner, 5 := TailPart], 6);
    CreateMemo();
    CreateSplit();
    var memo: seq<(Id, Interval)> := [(2, Middle)];
    assert memo[1..] == [];
    assert Overlap.ResolveEach(db0, Inner, memo) == Overlap.ResolveEach(one, Inner, memo[1..]);
  }

  /** One round of resolution for the new assignment inside the middle one:
      the middle assignment is split around it. */
  lemma CreateOneRound()
    ensures Save(Assignments(), Create, Draft(Some(736713), Some(736718)), [1, 2, 3], true)
            == Success(Store(map[1 := First, 2 := HeadPart, 3 := Last, 4 := Inner, 5 := TailPart], 6))
  {
    var st := Assignments();
    var d := Draft(Some(736713), Some(736718));
    var one := Store(map[1 := First, 2 := HeadPart, 3 := Last, 4 := Inner, 5 := TailPart], 6);
    assert SaveErrors(st, Create, d, true) == {};
    assert Write(st, Create, Inner) == Store(map[1 := First, 2 := Middle, 3 := Last, 4 := Inner], 5);
    CreateRound();
    assert AdjustGaps(one, 4, None) == one;
  }

  /** The same creation with the nested callbacks: the new record ends up
      destroyed and the three assignments are as before. */
  lemma CreateCascade(fuel: nat)
    ensures Cascade.Save(Assignments(), Create, Draft(Some(736713), Some(736718)), true, fuel + 5)
            == Success(Cascade.Run(Assignments().(nextId := 6), true))
  {
    var st := Assignments();
    var d := Draft(Some(736713), Some(736718));
    assert SaveErrors(st, Create, d, true) == {};
    assert Write(st, Create, Inner) == Store(map[1 := First, 2 := Middle, 3 := Last, 4 := Inner], 5);
    UndoSplit(fuel);
  }

  /** A new assignment for 2018-01-20 .. 2018-01-25 inside the middle one.
      One round of resolution splits the middle assignment around it and
      keeps it. With the nested callbacks the save of the head closes the
      gap it leaves, which drags the last assignment over the new record;
      that save destroys the new record, and the chain of gap closings that
      follows restores the original three assignments. */
  lemma CreateIsUndone(fuel: nat)
    ensures var d := Draft(Some(736713), Some(736718));
            && Save(Store(map[1 := Interval(MIN, 736708), 2 := Interval(736709, 736739), 3 := Interval(736740, MAX)], 4), Create, d, [1, 2, 3], true)
                 == Success(Store(map[1 := First, 2 := HeadPart, 3 := Last, 4 := Inner, 5 := TailPart], 6))
            && Cascade.Save(Store(map[1 := Interval(MIN, 736708), 2 := Interval(736709, 736739), 3 := Interval(736740, MAX)], 4), Create, d, true, fuel + 5)
                 == Success(Cascade.Run(Store(map[1 := Interval(MIN, 736708), 2 := Interval(736709, 736739), 3 := Interval(736740, MAX)], 4).(nextId := 6), true))
  {
    CreateOneRound();
    CreateCascade(fuel);
  }
}

=== FILE: timeline.dfy ===
/** The totally ordered timeline that periodic records live on.

    A point is a whole number of ticks. The library moves a boundary by one
    step (`1.day` for date columns), so one tick is one step: `Succ` and `Pred`
    are the step forward and back. The sentinels are the library's
    `Date.new(0001, 1, 1)` and `Date.new(9999, 1, 1)`, written as day numbers
    counted from 0001-01-01. */
module Timeline {

  type Time = int

  /** "Since the beginning of time": 0001-01-01. */
  const MIN: Time := 0

  /** "Until the end of time": 9999-01-01, 3651694 days after MIN in the
      proleptic Gregorian calendar. */
  const MAX: Time := 3651694

  /** One step later. */
  function Succ(t: Time): Time { t + 1 }

  /** One step earlier. */
  function Pred(t: Time): Time { t - 1 }

  /** A closed interval `[start, end]`, the `start_at`/`end_at` pair of a record. */
  datatype Interval = Interval(start: Time, end: Time) {

    /** The bounds are ordered; equal bounds make a one-step interval. */
    predicate Valid() { start <= end }

    predicate Contains(t: Time) { start <= t && t <= end }
  }

  /** The inclusive overlap test of `within_interval`: `x` begins no later
      than `y` ends and ends no earlier than `y` begins. */
  predicate Overlaps(x: Interval, y: Interval) {
    x.start <= y.end && x.end >= y.start
  }

  /** For well-formed intervals the bound-wise test means what it says: the two
      intervals share a point of the timeline. */
  lemma OverlapsIffSharedPoint(x: Interval, y: Interval)
    requires x.Valid() && y.Valid()
    ensures Overlaps(x, y) <==> exists t :: x.Contains(t) && y.Contains(t)
  {
    if Overlaps(x, y) {
      var t := if x.start <= y.start then y.start else x.start;
      assert x.Contains(t) && y.Contains(t);
    }
  }

  /** A shared point always makes the bound-wise test fire, whether or not the
      intervals are well formed. */
  lemma SharedPointOverlaps(x: Interval, y: Interval, t: Time)
    requires x.Contains(t) && y.Contains(t)
    ensures Overlaps(x, y)
  {
  }
}
